=== FILE: README.md ===
# Marble tilt-maze: the per-frame simulation step

This project models the simulation at the heart of a browser marble game
(`main.js`). The player tilts a square platform with the arrow keys, and a
marble rolls across it under gravity, between walls, toward a goal. Every
animation frame does the same four things:

- The **tilt controller** moves two target angles by `tiltSpeed` for each held
  arrow key, clamped to `±maxAngle`. The current angles then close a tenth
  of the gap to the targets.
- **`updatePhysics`** does nothing once the game is won. Otherwise it works
  out gravity's pull along the tilted platform, and clamps the frame time to
  0.1 s. It then updates the velocity, applies `FRICTION`, moves the marble,
  and puts it back on the floor.
- **`checkWallCollisions`** handles each wall box in turn. It clamps the
  marble's centre into the box to find the closest point. On contact it
  pushes the marble out along the normal and reflects an inbound velocity
  with `BOUNCE_DAMPING`. The normal has already been scaled by the push
  when the reflection uses it (see "Findings"), and the model's wall loop
  does the same. It then keeps the marble on the square platform and
  between the floor and the invisible ceiling.
- **`checkWinCondition`** latches `gameWon` once the marble's planar distance
  to the goal is below `goalRadius`. Only `resetMarble` (the `R` key) clears
  the flag. It puts the marble back at `(-3.5, r, -3.5)` at rest and keeps the
  tilt.

Modules, one per part of the program:

| file | module | what it holds |
|---|---|---|
| `constants.dfy` | `Constants` | the game's fixed numbers |
| `jsmath.dfy` | `JsMath` | `Math.min`, `Math.max`, `Math.abs`, `Math.sign` |
| `vectors.dfy` | `Vectors` | the `Vector3` operations used, and a square-root oracle |
| `tilt.dfy` | `Tilt` | the tilt controller |
| `marble.dfy` | `Marble` | the marble record and the integrator |
| `collision.dfy` | `Collision` | closest point, contact, reflection, edge and height clamps |
| `game.dfy` | `Game` | the win latch, reset, `updatePhysics`, `animate`, runs of frames |

Modelling choices:
- Numbers are Dafny `real`s, not IEEE doubles.
- Square root, sine and cosine are function parameters. `IsSqrt(sqrt)` says
  that `sqrt` returns the non-negative root of every non-negative real.
  Nothing is assumed about `sin` and `cos`, except `sin(0) = 0` in
  `Game.LevelHasNoPull` and `sin² + cos² = 1` in `Game.GravityDirUnit`.
- With the oracle, `distanceTo`, `normalize` and `Vector2.length` are modelled
  as written. That includes the zero-normal fallback to the box centre. Each
  distance test is also proved equivalent to a squared-distance test.
- The gravity direction is modelled from the tilt (`Game.GravityDir`). It is
  the platform's x-then-z Euler rotation applied to `(0, -1, 0)`, which gives
  `(sin z, -cos x cos z, -sin x cos z)`.
- The wall boxes are an input to every frame. The game recomputes them from
  the wall meshes (`Box3.setFromObject`) each frame.
- The frame time is also an input to every frame.
- `maxAngle` is a field of the tilt record, because `π/2` is not a rational.

Facts about `main.js` that the model keeps:
- `updatePhysics` caps the frame time at 0.1 s (main.js:389).
- Each frame integrates once and runs the wall loop once (main.js:407-422).
- The contact normal is the offset from the closest point, or the offset
  from the box's centre when the two coincide (main.js:316-326).
- The win test runs once per frame, at the end of `updatePhysics`
  (main.js:425).
- `resetMarble` does not touch the tilt (main.js:232-238).

## Model

| member | source | states |
|---|---|---|
| Tilt.Lower | main.js:446-447 | a held Up/Left key lowers the target by exactly `tiltSpeed` when that stays at or above `-maxAngle`, and sets it to exactly `-maxAngle` otherwise; never below `-maxAngle`, never above where it was |
| Tilt.Raise | main.js:449-450 | a held Down/Right key raises the target by exactly `tiltSpeed` when that stays at or below `maxAngle`, and sets it to exactly `maxAngle` otherwise; never above `maxAngle`, never below where it was |
| Tilt.StepTargets | main.js:446-457 | the four key tests touch only the targets; on each axis, no key keeps the target, the lowering key alone gives `Lower` and the raising key alone gives `Raise`; with both keys held, Up before Down (Left before Right) gives `min(max(target, -maxAngle + tiltSpeed), maxAngle)`, so at `-maxAngle` the target rises one step while at `maxAngle` it stays; angles within the limits stay within them |
| Tilt.Smooth | main.js:460-461 | with the smoothing factor `s` = 0.1 the new current angle is the convex mix `(1 - s)·current + s·target`, so the remaining gap is `1 - s` = 0.9 times the old one |
| Tilt.TiltStep | main.js:446-461 | one frame of the controller: targets from the keys, then both current angles smoothed toward the new targets; keeps every angle within `±maxAngle` |
| Tilt.GapShrinks | main.js:460-461 | after a frame, the distance between current and target angle is exactly 0.9 times the distance before smoothing |
| Tilt.RunTiltValid | main.js:446-461 | whatever keys are held over any number of frames, targets and current angles stay in `[-maxAngle, maxAngle]` |
| Tilt.IdleConverges | main.js:460-461 | with no key held for `n` frames the targets do not move and the gap to them is `0.9^n` times the initial gap |
| Tilt.TravelIsProduct | main.js:446-448 | `n` unclamped steps of `tiltSpeed` add up to `n·tiltSpeed`, so `Tilt.HoldUp` lowers the target by `n·tiltSpeed` |
| Tilt.HoldUp | main.js:446-448 | holding only Up for `n` frames sets the x target to `max(targetX - Travel(n, tiltSpeed), -maxAngle)` and leaves the z target alone |
| Marble.EffectiveDt | main.js:389 | the integrated time step is `deltaTime` when at most 0.1, and 0.1 otherwise |
| Marble.GravityForce | main.js:401-405 | the driving force has no vertical part and is zero exactly when the gravity direction is vertical |
| Marble.GravityForceDownhill | main.js:401-405 | the driving force's component along the uphill direction is `-GRAVITY·(gx² + gz²)` ≤ 0 |
| Marble.GravityForceAlongSlope | main.js:401-405 | the driving force is exactly `-GRAVITY` times the horizontal part `(gx, 0, gz)` of the gravity direction, so it points straight downhill with no sideways part |
| Marble.Integrate | main.js:407-419 | the position moves by the updated velocity times `dt` (semi-implicit Euler), then sits at height `marbleRadius`; vertical velocity is only scaled by `FRICTION`; spin untouched |
| Marble.ForceThenFriction | main.js:407-411 | the new velocity is `FRICTION·v + FRICTION·dt·force`: the force is added first, then friction scales both the old velocity and the gain |
| Marble.LevelOnlySlows | main.js:407-411 | on a level platform the velocity is just scaled by `FRICTION`, so the speed never grows |
| Marble.GravityPullsDownhill | main.js:401-411 | over one step the uphill component of the velocity falls to at most `FRICTION` times its old value |
| Marble.IntegrateAtRest | main.js:401-419 | a marble at rest on the floor of a level platform does not move |
| Collision.Clamp | main.js:306-308 | `max(lo, min(v, hi))` lies in `[lo, hi]`, is `v` inside the range, and the nearer end outside it |
| Collision.ClosestPointInside | main.js:305-309 | the closest point lies in the box, and equals the marble's centre exactly when the centre is in the box |
| Collision.ClosestPointNearest | main.js:305-309 | no point of the box is nearer to the marble's centre than the closest point |
| Collision.Center | main.js:323-324 | `getCenter` lies in a non-empty box, and is the origin for an empty one |
| Collision.CenterIsMidpoint | main.js:323-324 | the centre of a non-empty box is its midpoint: as far from `min` as `max` is from it |
| Collision.ContactTest | main.js:311-315 | the marble touches a wall exactly when its squared distance to the closest point is below `marbleRadius²`; the reported distance is that distance, and it is zero exactly when the centre is its own closest point |
| Collision.ContactNormalFacts | main.js:316-326 | the normal is a unit vector or zero; from outside the box it is the unit offset from the closest point, scaling back to that offset; from inside it is the direction from the box's centre |
| Collision.Reflect | main.js:334-342 | a velocity that is not moving into the wall, or a zero normal, leaves the velocity unchanged |
| Collision.ReflectUnit | main.js:334-342 | along a unit normal an inbound normal speed becomes `-BOUNCE_DAMPING` times itself, and the result never moves into the wall |
| Collision.ReflectKeepsTangent | main.js:334-342 | along a unit normal the reflection keeps the tangential part of the velocity |
| Collision.ReflectSlows | main.js:334-342 | reflecting along a unit or zero normal never increases the speed |
| Collision.PushDistance | main.js:328-332 | the push is the penetration depth plus 0.01: between 0.01 and `marbleRadius + 0.01`, and together with the distance it makes `marbleRadius + 0.01` |
| Collision.ResolveWall | main.js:311-343 | corrected wall step: a wall the marble does not touch changes nothing; spin untouched |
| Collision.ResolveWallAsWritten | main.js:328-341 | wall step as written: the same push as the corrected step, with the velocity reflected along the normal already scaled by the push |
| Collision.ResolveWallClear | main.js:311-315 | a marble at least `marbleRadius` from a wall is left alone by both wall steps |
| Collision.ResolveWallSlows | main.js:311-343 | the corrected wall step never speeds the marble up |
| Collision.ResolveWallAsWrittenSlows | main.js:328-342 | the wall step as written never speeds the marble up either: it reflects along a normal no longer than 1 |
| Collision.ResolveWallBounces | main.js:334-342 | corrected: after any contact the marble does not move into the wall along the contact normal, and an inbound normal speed is reversed and halved |
| Collision.AsWrittenKeepsMovingIn | main.js:329-341 | as written: a marble hitting a wall, from outside the box or with its centre inside it, still moves into it after the step |
| Collision.AsWrittenCounterexample | main.js:329-341 | in a concrete hit at speed 5 the as-written step leaves `vx = 4.90925`, where the corrected one gives `-2.5` |
| Collision.NoResidualOverlap | main.js:328-332 | after the push from outside the closest point is unchanged, the centre sits exactly `marbleRadius + 0.01` out from it along the unit contact normal, and the marble no longer touches that wall |
| Collision.ResolveWalls | main.js:296-344 | the walls in order, each with the wall step as written; spin untouched |
| Collision.ResolveWallsSlows | main.js:296-344 | no sequence of as-written wall steps speeds the marble up |
| Collision.ResolveWallsClear | main.js:296-344 | a marble clear of every wall passes through the wall loop unchanged |
| Collision.EdgeAxis | main.js:347-355 | one horizontal axis: afterwards within `±halfSize`; untouched if already within; otherwise on the edge on its own side, with velocity `-BOUNCE_DAMPING` times the old |
| Collision.ClampToPlatform | main.js:346-355 | after the edge clamp `|x|, |z| ≤ halfSize`; a coordinate beyond an edge is put on that edge, `halfSize` on the positive side and `-halfSize` on the negative side, with its velocity reversed and halved; an unclamped axis is unchanged; the height is untouched |
| Collision.ClampHeight | main.js:357-368 | afterwards `marbleRadius ≤ y ≤ ceilingHeight`; a marble above the ceiling is put at `ceilingHeight` (5.0) and one below the floor at `marbleRadius`, either with vertical velocity 0; a marble already in range is unchanged; nothing horizontal changes |
| Collision.CheckWallCollisions | main.js:295-369 | after the whole collision pass, with the wall step as written, the marble is within the platform and between floor and ceiling; spin untouched |
| Collision.CheckWallCollisionsSlows | main.js:295-369 | the collision pass as written never speeds the marble up |
| Collision.CheckWallCollisionsClear | main.js:295-369 | a marble in bounds and clear of every wall passes through the collision pass unchanged |
| Game.InGoalSquared | main.js:373-378 | the goal test on the planar distance is the test `dx² + dz² < goalRadius²` |
| Game.CheckWin | main.js:372-382 | the flag ends set exactly when it was set or the marble is within reach of the goal; marble and tilt untouched |
| Game.ResetMarble | main.js:232-238 | the marble at `(-3.5, marbleRadius, -3.5)` with zero velocity and spin, the flag cleared, the tilt kept |
| Game.ResetIdempotent | main.js:232-238 | resetting twice equals resetting once; the spawn point is in bounds and not within reach of the goal |
| Game.GravityDir | main.js:392-397 | straight down rotated by the tilt: level in both angles gives no horizontal part; with no z tilt it is `(0, -cos x, -sin x)` |
| Game.GravityDirUnit | main.js:392-397 | the rotated direction is a unit vector whenever `sin² + cos² = 1` for both angles |
| Game.LevelHasNoPull | main.js:392-405 | with both current angles zero the gravity direction has no horizontal part, so the driving force is zero |
| Game.UpdatePhysics | main.js:385-425 | once won, the step changes nothing; otherwise the marble, integrated and collided as written, ends in bounds; the flag ends set exactly when it was, or the marble ends within reach of the goal; the tilt is untouched |
| Game.PhysicsMoves | main.js:387-422 | when the game is not won, the physics step's marble is `Integrate` over the clamped frame time followed by the collision pass as written |
| Game.LevelFrameSlows | main.js:385-425 | on a level platform a physics step, with the wall step as written, never speeds the marble up |
| Game.RestStaysAtRest | main.js:385-422 | a marble at rest on a level platform, in bounds and clear of the walls, stays exactly where it is |
| Game.Animate | main.js:440-467 | the tilt moves every frame, even after a win; a won game keeps its marble and stays won; otherwise the marble takes one physics step under the gravity of the new tilt and ends in bounds; the flag ends set exactly when it was or the marble ends within reach of the goal |
| Game.Step | main.js:274-276 | the `R` key clears the flag, puts the marble at the spawn point and keeps the tilt; a frame moves the tilt by `TiltStep` and keeps a won game's marble and flag; otherwise the marble takes one physics step over that frame's time and walls, under the gravity of the new tilt, and ends in bounds; the flag ends set exactly when it was set or the marble ends within reach of the goal |
| Game.InitialInvariant | main.js:202-240 | the starting state has level tilt within the limits and the marble in bounds |
| Game.StepKeepsInvariant | main.js:440-467 | a frame or the `R` key keeps the tilt within its limits and the marble in bounds |
| Game.RunKeepsInvariant | main.js:440-467 | over any run of frames and resets the tilt stays within its limits and the marble in bounds |
| Game.WonFreezes | main.js:385-386 | once won, with no `R` key, the game stays won and the marble stays exactly where it is, whatever keys are held |
| Game.StepLatch | main.js:378-381 | an event clears the flag only if it is the `R` key, and sets it only in a frame that ends within reach of the goal |

## Left out

- Rendering and browser plumbing are not modelled: the scene, meshes, lights, camera presets (keys 0-3), `OrbitControls`, resizing, the win message's display, copying the state into the marble mesh, and the light that follows the marble. They are output only.
- The rolling spin (`rotateOnWorldAxis`, main.js:430-436) is not modelled. It is cosmetic: it changes the mesh's orientation and no state the simulation reads.
- `requestAnimationFrame` and `clock.getDelta` are not modelled. The frame time is an input to every frame.
- Key events are not modelled. Which arrow keys are held is an input to every frame, and the `R` key is its own event (`Game.ResetKey`).
- `Box3.setFromObject` is not modelled. The wall boxes are an input to every frame.
- The trigonometry of the rotation matrix is not modelled. `sin` and `cos` are oracles; `sin(0) = 0` is assumed in `Game.LevelHasNoPull` and `sin² + cos² = 1` in `Game.GravityDirUnit`.
- IEEE-754 rounding is not modelled. Numbers are reals, and `sqrt` is exact.
- `ROLLING_RESISTANCE` is not modelled, because the game never uses it.
- Game.InitialInvariant: starts from any `maxAngle ≥ 0` rather than the game's `π/2`, which is not a real literal.
- Collision.NoResidualOverlap: covers only a contact from outside the box. When the centre is inside, the normal comes from the box's centre and need not point across the face that was hit, so the push need not clear the wall.
- Game.RunKeepsInvariant: does not say that the marble ends clear of the walls. The edge and height clamps run after the wall loop and can put the marble back into a wall.

## Findings

| source | as written | input that shows it | evidently intended | confidence | as-written member | corrected member |
|---|---|---|---|---|---|---|
| main.js:329-341 | `multiplyScalar` scales `collisionNormal` in place. The reflection then uses the normal already scaled by the push `s = marbleRadius - distance + 0.01` (at most 0.31), and line 340 scales it again. An inbound normal speed `u` becomes `u·(1 - 1.5·s²)`, which is still inbound. | Marble at `(-0.2, 0.3, 0)` moving at `(5, 0, 0)`, against a wall box from `(0, 0, -1)` to `(1, 0.5, 1)`. Contact normal `(-1, 0, 0)`, distance 0.2, push 0.11. As written `vx` becomes 4.90925. | Reflect along the unit normal: `vx` becomes `-2.5`, so the marble bounces back at half speed. | not executed | Collision.AsWrittenKeepsMovingIn, Collision.AsWrittenCounterexample | Collision.ResolveWall, Collision.ResolveWallBounces |

The frame-level members (`Collision.ResolveWalls` and everything built on it) use the wall step as written, so they describe the game as it is. `Collision.ResolveWall`, `Collision.ResolveWallSlows` and `Collision.ResolveWallBounces` describe the corrected step.

=== FILE: collision.dfy ===
/**
 `checkWallCollisions`: the marble against each wall box in turn, then the
 square platform edge, then the invisible ceiling and the floor.

 For each wall the marble's centre is clamped into the box to find the
 closest point. If that point is nearer than the marble's radius the marble
 touches the wall: the contact normal points from the closest point to the
 centre (or, when the centre is inside the box and the two coincide, from the
 box's centre to the marble's centre); the marble is pushed out along the
 normal by the penetration depth plus a small margin, and a velocity moving
 into the wall is reflected with `BOUNCE_DAMPING`.

 The game scales the normal in place before reflecting along it, so the
 reflection it performs is much weaker than the one its comments describe.
 `ResolveWallAsWritten` is that step, and the wall loop uses it;
 `ResolveWall` is the step as intended, and the lemmas about the two show
 the difference.

 The wall boxes are inputs: the game recomputes them from the wall meshes
 every frame.
 */
module Collision {
  import opened Vectors
  import opened JsMath
  import opened Marble
  import C = Constants

  /** An axis-aligned box, `Box3`. */
  datatype Box = Box(min: Vec3, max: Vec3)

  /** Not empty on any axis (`Box3.isEmpty` is false). */
  predicate WellFormed(b: Box) {
    b.min.x <= b.max.x && b.min.y <= b.max.y && b.min.z <= b.max.z
  }

  predicate Inside(p: Vec3, b: Box) {
    && b.min.x <= p.x <= b.max.x
    && b.min.y <= p.y <= b.max.y
    && b.min.z <= p.z <= b.max.z
  }

  // ------------------------------------------------------------ closest point

  /** `Math.max(lo, Math.min(v, hi))`. */
  function Clamp(v: real, lo: real, hi: real): (r: real)
    ensures lo <= hi ==> lo <= r <= hi
    ensures lo <= v <= hi ==> r == v
    ensures lo <= hi && v < lo ==> r == lo
    ensures lo <= hi && hi < v ==> r == hi
  {
    Max(lo, Min(v, hi))
  }

  /** The point of the box nearest to `p`, one axis at a time. */
  function ClosestPoint(p: Vec3, b: Box): Vec3 {
    Vec3(Clamp(p.x, b.min.x, b.max.x), Clamp(p.y, b.min.y, b.max.y), Clamp(p.z, b.min.z, b.max.z))
  }

  /**
   The closest point of a non-empty box lies in the box, and it is the point
   itself exactly when the point is in the box.
   */
  lemma ClosestPointInside(p: Vec3, b: Box)
    ensures WellFormed(b) ==> Inside(ClosestPoint(p, b), b)
    ensures Inside(p, b) ==> ClosestPoint(p, b) == p
    ensures WellFormed(b) && ClosestPoint(p, b) == p ==> Inside(p, b)
  {
  }

  /** On one axis the clamped value is at least as near to `v` as any value in range. */
  lemma ClampNearest(v: real, lo: real, hi: real, q: real)
    requires lo <= q <= hi
    ensures Sq(v - Clamp(v, lo, hi)) <= Sq(v - q)
  {
    var c := Clamp(v, lo, hi);
    if v < lo {
      SqMono(lo - v, q - v);
      SqNeg(v - c);
      SqNeg(v - q);
    } else if hi < v {
      SqMono(v - hi, v - q);
    } else {
      SqNonneg(v - q);
    }
  }

  /** No point of the box is nearer to `p` than the closest point. */
  lemma ClosestPointNearest(p: Vec3, b: Box, q: Vec3)
    requires Inside(q, b)
    ensures Dist2(p, ClosestPoint(p, b)) <= Dist2(p, q)
  {
    ClampNearest(p.x, b.min.x, b.max.x, q.x);
    ClampNearest(p.y, b.min.y, b.max.y, q.y);
    ClampNearest(p.z, b.min.z, b.max.z, q.z);
  }

  /** `Box3.getCenter`: the midpoint, or the origin for an empty box. */
  function Center(b: Box): (r: Vec3)
    ensures WellFormed(b) ==> Inside(r, b)
    ensures !WellFormed(b) ==> r == Zero
  {
    if WellFormed(b) then Scale(Add(b.min, b.max), 0.5) else Zero
  }

  /** The centre of a non-empty box is its midpoint: as far from `min` as `max` is from it. */
  lemma CenterIsMidpoint(b: Box)
    requires WellFormed(b)
    ensures Sub(Center(b), b.min) == Sub(b.max, Center(b))
  {
  }

  // ------------------------------------------------------------------ contact

  /** Whether, and how, the marble touches one wall. */
  datatype Contact = NoContact | Touching(normal: Vec3, distance: real)

  /** A unit vector, or the zero vector `normalize` leaves alone. */
  ghost predicate UnitOrZero(n: Vec3) {
    Norm2(n) == 1.0 || n == Zero
  }

  /**
   The contact test for one wall: `distance` is the distance from the
   marble's centre to the box's closest point, and the marble touches the
   wall when that is less than its radius.
   */
  function FindContact(p: Vec3, b: Box, sqrt: real -> real): (c: Contact)
    requires IsSqrt(sqrt)
    ensures c.Touching? ==> 0.0 <= c.distance < C.MarbleRadius
  {
    var dist := Distance(p, ClosestPoint(p, b), sqrt);
    if !(dist < C.MarbleRadius) then NoContact else Touching(ContactNormal(p, b, sqrt), dist)
  }

  /**
   The contact normal: the normalised offset from the closest point to the
   centre, or, when that offset is shorter than `0.001` (the centre is inside
   the box), the normalised offset from the box's centre.
   */
  function ContactNormal(p: Vec3, b: Box, sqrt: real -> real): Vec3
    requires IsSqrt(sqrt)
  {
    var n0 := Normalize(Sub(p, ClosestPoint(p, b)), sqrt);
    if Length(n0, sqrt) < C.NormalEpsilon then Normalize(Sub(p, Center(b)), sqrt) else n0
  }

  /**
   The marble touches the wall exactly when the squared distance to the
   closest point is below the squared radius, and the reported distance is
   that distance.
   */
  lemma ContactTest(p: Vec3, b: Box, sqrt: real -> real)
    requires IsSqrt(sqrt)
    ensures var c := FindContact(p, b, sqrt);
      && (c.Touching? <==> Dist2(p, ClosestPoint(p, b)) < Sq(C.MarbleRadius))
      && (c.Touching? ==> Sq(c.distance) == Dist2(p, ClosestPoint(p, b)))
      && (c.Touching? ==> (c.distance == 0.0 <==> p == ClosestPoint(p, b)))
  {
    var cp := ClosestPoint(p, b);
    var dist := Distance(p, cp, sqrt);
    SqLess(dist, C.MarbleRadius);
  }

  /**
   The contact normal is a unit vector or zero. When the centre is outside
   the box it is the unit vector from the closest point to the centre, and
   scaling it by the distance gives back that offset; when the centre is
   inside the box it is the direction from the box's centre.
   */
  lemma ContactNormalFacts(p: Vec3, b: Box, sqrt: real -> real)
    requires IsSqrt(sqrt)
    ensures var n := ContactNormal(p, b, sqrt);
      var cp := ClosestPoint(p, b);
      && UnitOrZero(n)
      && (p != cp ==> Norm2(n) == 1.0 && Scale(n, Distance(p, cp, sqrt)) == Sub(p, cp))
      && (p == cp ==> Scale(n, Length(Sub(p, Center(b)), sqrt)) == Sub(p, Center(b)))
  {
    if p == ClosestPoint(p, b) {
      NormalInside(p, b, sqrt);
    } else {
      NormalOutside(p, b, sqrt);
    }
  }

  lemma NormalInside(p: Vec3, b: Box, sqrt: real -> real)
    requires IsSqrt(sqrt)
    requires p == ClosestPoint(p, b)
    ensures ContactNormal(p, b, sqrt) == Normalize(Sub(p, Center(b)), sqrt)
  {
    var offset := Sub(p, ClosestPoint(p, b));
    assert offset == Zero;
    var n0 := Normalize(offset, sqrt);
    assert n0 == Zero;
    UnitLength(n0, sqrt);
  }

  lemma NormalOutside(p: Vec3, b: Box, sqrt: real -> real)
    requires IsSqrt(sqrt)
    requires p != ClosestPoint(p, b)
    ensures ContactNormal(p, b, sqrt) == Normalize(Sub(p, ClosestPoint(p, b)), sqrt)
    ensures Norm2(ContactNormal(p, b, sqrt)) == 1.0
  {
    var cp := ClosestPoint(p, b);
    var offset := Sub(p, cp);
    SubZero(p, cp);
    var n0 := Normalize(offset, sqrt);
    assert Norm2(n0) == 1.0;
    UnitLength(n0, sqrt);
  }

  /** The contact normal is a unit vector, or zero when the marble's centre is the box's centre. */
  lemma ContactUnit(p: Vec3, b: Box, sqrt: real -> real)
    requires IsSqrt(sqrt)
    ensures UnitOrZero(ContactNormal(p, b, sqrt))
  {
    if p == ClosestPoint(p, b) {
      NormalInside(p, b, sqrt);
    } else {
      NormalOutside(p, b, sqrt);
    }
  }

  /** A normalised vector has length 1, or 0 when it is the zero vector. */
  lemma UnitLength(n: Vec3, sqrt: real -> real)
    requires IsSqrt(sqrt)
    requires UnitOrZero(n)
    ensures n != Zero ==> Length(n, sqrt) == 1.0
    ensures n == Zero ==> Length(n, sqrt) == 0.0
  {
    if n != Zero {
      SqInjective(Length(n, sqrt), 1.0);
    }
  }

  // --------------------------------------------------------------- reflection

  /** The part of `v` perpendicular to the unit vector `n`. */
  function Tangent(v: Vec3, n: Vec3): Vec3 {
    Sub(v, Scale(n, Dot(v, n)))
  }

  /**
   Reflection along a contact normal: a velocity moving into the wall
   (`v·n < 0`) loses `1 + BOUNCE_DAMPING` times its component along `n`; any
   other velocity is left alone.
   */
  function Reflect(v: Vec3, n: Vec3): (r: Vec3)
    ensures 0.0 <= Dot(v, n) ==> r == v
    ensures n == Zero ==> r == v
  {
    var vn := Dot(v, n);
    if vn < 0.0 then Sub(v, Scale(n, vn * (1.0 + C.BounceDamping))) else v
  }

  /**
   Along a unit normal the reflection reverses an inward normal velocity and
   halves it, and never leaves the marble moving into the wall.
   */
  lemma ReflectUnit(v: Vec3, n: Vec3)
    requires Norm2(n) == 1.0
    ensures Dot(v, n) < 0.0 ==> Dot(Reflect(v, n), n) == -C.BounceDamping * Dot(v, n)
    ensures 0.0 <= Dot(Reflect(v, n), n)
  {
    var vn := Dot(v, n);
    if vn < 0.0 {
      var k := vn * (1.0 + C.BounceDamping);
      assert Reflect(v, n) == Sub(v, Scale(n, k));
      DotSubScaled(v, n, k);
    }
  }

  /** Along a unit normal the reflection keeps the tangential part of the velocity. */
  lemma ReflectKeepsTangent(v: Vec3, n: Vec3)
    requires Norm2(n) == 1.0
    ensures Tangent(Reflect(v, n), n) == Tangent(v, n)
  {
    var vn := Dot(v, n);
    if vn < 0.0 {
      var k := vn * (1.0 + C.BounceDamping);
      var r := Sub(v, Scale(n, k));
      assert Reflect(v, n) == r;
      DotSubScaled(v, n, k);
      assert Dot(r, n) == vn - k;
      SubScaledTwice(v, n, k, vn - k);
    }
  }

  /** Reflecting along a unit (or zero) normal never speeds the marble up. */
  lemma ReflectSlows(v: Vec3, n: Vec3)
    requires UnitOrZero(n)
    ensures Norm2(Reflect(v, n)) <= Norm2(v)
  {
    var vn := Dot(v, n);
    if vn < 0.0 && n != Zero {
      var k := vn * (1.0 + C.BounceDamping);
      assert Reflect(v, n) == Sub(v, Scale(n, k));
      Norm2SubScaled(v, n, k);
      ReflectEnergy(Norm2(v), vn, k);
    }
  }

  /** `|v|^2 - 2 k (v·n) + k^2` with `k = 1.5 (v·n)` is `|v|^2 - 0.75 (v·n)^2`. */
  lemma ReflectEnergy(v2: real, vn: real, k: real)
    requires k == vn * (1.0 + C.BounceDamping)
    ensures v2 - 2.0 * k * vn + Sq(k) * 1.0 <= v2
  {
    SqNonneg(vn);
    assert 2.0 * k * vn == 3.0 * Sq(vn);
    assert Sq(k) == 2.25 * Sq(vn);
  }

  // ------------------------------------------------------------ one wall

  /** The push distance: penetration depth plus the margin. */
  function PushDistance(distance: real): (s: real)
    requires 0.0 <= distance < C.MarbleRadius
    ensures C.PushMargin < s <= C.MarbleRadius + C.PushMargin
    ensures distance + s == C.MarbleRadius + C.PushMargin
  {
    C.MarbleRadius - distance + C.PushMargin
  }

  /**
   One wall: push the marble out along the unit normal and reflect its
   velocity along the same unit normal.
   */
  function ResolveWall(m: Marble, b: Box, sqrt: real -> real): (r: Marble)
    requires IsSqrt(sqrt)
    ensures FindContact(m.position, b, sqrt).NoContact? ==> r == m
    ensures r.angularVelocity == m.angularVelocity
  {
    match FindContact(m.position, b, sqrt)
    case NoContact => m
    case Touching(n, dist) =>
      m.(position := Add(m.position, Scale(n, PushDistance(dist))), velocity := Reflect(m.velocity, n))
  }

  /**
   One wall as the game writes it: `multiplyScalar` scales the normal itself,
   so the reflection uses the normal already multiplied by the push distance.
   */
  function ResolveWallAsWritten(m: Marble, b: Box, sqrt: real -> real): (r: Marble)
    requires IsSqrt(sqrt)
    ensures FindContact(m.position, b, sqrt).NoContact? ==> r == m
    ensures r.position == ResolveWall(m, b, sqrt).position
    ensures r.angularVelocity == m.angularVelocity
  {
    match FindContact(m.position, b, sqrt)
    case NoContact => m
    case Touching(n, dist) =>
      var scaled := Scale(n, PushDistance(dist));
      m.(position := Add(m.position, scaled), velocity := Reflect(m.velocity, scaled))
  }

  /** A marble that does not overlap the wall is left alone. */
  lemma ResolveWallClear(m: Marble, b: Box, sqrt: real -> real)
    requires IsSqrt(sqrt)
    requires Sq(C.MarbleRadius) <= Dist2(m.position, ClosestPoint(m.position, b))
    ensures ResolveWall(m, b, sqrt) == m
    ensures ResolveWallAsWritten(m, b, sqrt) == m
  {
    ContactTest(m.position, b, sqrt);
  }

  /** The corrected wall step never speeds the marble up. */
  lemma ResolveWallSlows(m: Marble, b: Box, sqrt: real -> real)
    requires IsSqrt(sqrt)
    ensures Norm2(ResolveWall(m, b, sqrt).velocity) <= Norm2(m.velocity)
  {
    var c := FindContact(m.position, b, sqrt);
    if c.Touching? {
      ContactUnit(m.position, b, sqrt);
      WallStepsAt(m, b, sqrt, c.normal, c.distance);
      ReflectSlows(m.velocity, c.normal);
    }
  }

  /**
   The wall step as written never speeds the marble up either: the normal it
   reflects along is a unit vector scaled by at most 0.31.
   */
  lemma ResolveWallAsWrittenSlows(m: Marble, b: Box, sqrt: real -> real)
    requires IsSqrt(sqrt)
    ensures Norm2(ResolveWallAsWritten(m, b, sqrt).velocity) <= Norm2(m.velocity)
  {
    var c := FindContact(m.position, b, sqrt);
    if c.Touching? {
      var s := PushDistance(c.distance);
      ContactUnit(m.position, b, sqrt);
      WallStepsAt(m, b, sqrt, c.normal, c.distance);
      ScaledShort(c.normal, s);
      ReflectShortSlows(m.velocity, Scale(c.normal, s));
    }
  }

  /** A unit (or zero) vector scaled by at most 0.31 is no longer than 1. */
  lemma ScaledShort(n: Vec3, s: real)
    requires UnitOrZero(n) && 0.0 <= s <= 0.31
    ensures Norm2(Scale(n, s)) <= 1.0
  {
    Norm2Scale(n, s);
    SqMono(s, 0.31);
    SqNonneg(s);
  }

  /** Reflecting along any vector no longer than 1 never speeds the marble up. */
  lemma ReflectShortSlows(v: Vec3, h: Vec3)
    requires Norm2(h) <= 1.0
    ensures Norm2(Reflect(v, h)) <= Norm2(v)
  {
    var vn := Dot(v, h);
    if vn < 0.0 {
      var k := vn * (1.0 + C.BounceDamping);
      assert Reflect(v, h) == Sub(v, Scale(h, k));
      Norm2SubScaled(v, h, k);
      ShortEnergy(Norm2(v), vn, k, Norm2(h));
    }
  }

  /** `|v|^2 - 3 (v·h)^2 + 2.25 (v·h)^2 |h|^2` is at most `|v|^2` when `|h|^2 <= 1`. */
  lemma ShortEnergy(v2: real, vn: real, k: real, hh: real)
    requires k == vn * (1.0 + C.BounceDamping) && hh <= 1.0
    ensures v2 - 2.0 * k * vn + Sq(k) * hh <= v2
  {
    SqNonneg(vn);
    SqNonneg(k);
    assert 2.0 * k * vn == 3.0 * Sq(vn);
    assert Sq(k) == 2.25 * Sq(vn);
    MulNonneg(Sq(k), 1.0 - hh);
  }

  /**
   The corrected wall step leaves a marble that touched a wall moving away
   from it or along it, with its inward speed reversed and halved.
   */
  lemma ResolveWallBounces(m: Marble, b: Box, sqrt: real -> real)
    requires IsSqrt(sqrt)
    requires FindContact(m.position, b, sqrt).Touching?
    ensures var n := FindContact(m.position, b, sqrt).normal;
      && 0.0 <= Dot(ResolveWall(m, b, sqrt).velocity, n)
      && (Dot(m.velocity, n) < 0.0 ==> Dot(ResolveWall(m, b, sqrt).velocity, n) == -C.BounceDamping * Dot(m.velocity, n))
  {
    var c := FindContact(m.position, b, sqrt);
    ContactUnit(m.position, b, sqrt);
    WallStepsAt(m, b, sqrt, c.normal, c.distance);
    ReflectUnitOrZero(m.velocity, c.normal);
  }

  /** `ReflectUnit`, extended to the zero normal, along which nothing changes. */
  lemma ReflectUnitOrZero(v: Vec3, n: Vec3)
    requires UnitOrZero(n)
    ensures Dot(v, n) < 0.0 ==> Dot(Reflect(v, n), n) == -C.BounceDamping * Dot(v, n)
    ensures 0.0 <= Dot(Reflect(v, n), n)
  {
    if n == Zero {
      assert Dot(Reflect(v, n), n) == 0.0;
    } else {
      ReflectUnit(v, n);
    }
  }

  /**
   As written, a marble that hits a wall keeps moving into it: its speed
   along the normal only drops by the factor `1 - 1.5 * s * s`, with the push
   distance `s` at most 0.31, and does not change sign.
   */
  lemma AsWrittenKeepsMovingIn(m: Marble, b: Box, sqrt: real -> real)
    requires IsSqrt(sqrt)
    requires FindContact(m.position, b, sqrt).Touching?
    requires Dot(m.velocity, FindContact(m.position, b, sqrt).normal) < 0.0
    ensures Dot(ResolveWallAsWritten(m, b, sqrt).velocity, FindContact(m.position, b, sqrt).normal) < 0.0
  {
    var c := FindContact(m.position, b, sqrt);
    var n := c.normal;
    var s := PushDistance(c.distance);
    var v := m.velocity;
    ContactUnit(m.position, b, sqrt);
    DotZero(v);
    WallStepsAt(m, b, sqrt, n, c.distance);
    InboundAfterScaledReflect(v, n, s);
  }

  lemma DotZero(v: Vec3)
    ensures Dot(v, Zero) == 0.0
  {
  }

  /** Reflecting along a unit normal scaled by `s` in (0, 0.31] keeps an inward velocity inward. */
  lemma InboundAfterScaledReflect(v: Vec3, n: Vec3, s: real)
    requires Norm2(n) == 1.0 && Dot(v, n) < 0.0 && 0.0 < s <= 0.31
    ensures Dot(Reflect(v, Scale(n, s)), n) < 0.0
  {
    var u := Dot(v, n);
    var scaled := Scale(n, s);
    var vn := Dot(v, scaled);
    assert vn == s * u by { DotScaled(v, n, s); }
    var k := vn * (1.0 + C.BounceDamping);
    assert Reflect(v, scaled) == Sub(v, Scale(scaled, k));
    ScaleScale(n, s, k);
    DotSubScaled(v, n, s * k);
    assert Dot(Sub(v, Scale(n, s * k)), n) == u - s * k;
    ShrunkStillNegative(u, s, vn, k);
  }

  lemma DotScaled(v: Vec3, n: Vec3, s: real)
    ensures Dot(v, Scale(n, s)) == s * Dot(v, n)
  {
  }

  /** With `s` at most 0.31 the normal factor `1 - 1.5 s^2` stays positive. */
  lemma ShrunkStillNegative(u: real, s: real, vn: real, k: real)
    requires u < 0.0 && 0.0 < s <= 0.31
    requires vn == s * u && k == vn * (1.0 + C.BounceDamping)
    ensures u - s * k < 0.0
  {
    SqMono(s, 0.31);
    assert u - s * k == u * (1.0 - 1.5 * Sq(s));
    MulPos(-u, 1.0 - 1.5 * Sq(s));
  }

  /** The example: a marble centred 0.2 left of a wall spanning x in [0, 1]. */
  ghost predicate ExampleHit(p: Vec3, b: Box) {
    p == Vec3(-0.2, 0.3, 0.0) && b == Box(Vec3(0.0, 0.0, -1.0), Vec3(1.0, 0.5, 1.0))
  }

  /** In the example the marble touches the wall at distance 0.2 with the normal pointing to -x. */
  lemma ExampleContact(p: Vec3, b: Box, sqrt: real -> real)
    requires IsSqrt(sqrt)
    requires ExampleHit(p, b)
    ensures FindContact(p, b, sqrt) == Touching(Vec3(-1.0, 0.0, 0.0), 0.2)
  {
    ExampleOffset(p, b, sqrt);
    ExampleNormal(p, b, sqrt);
  }

  lemma ExampleOffset(p: Vec3, b: Box, sqrt: real -> real)
    requires IsSqrt(sqrt)
    requires ExampleHit(p, b)
    ensures Sub(p, ClosestPoint(p, b)) == Vec3(-0.2, 0.0, 0.0)
    ensures Distance(p, ClosestPoint(p, b), sqrt) == 0.2
  {
    ExampleClosest(p, b);
    var offset := Vec3(-0.2, 0.0, 0.0);
    DistanceIsLength(p, ClosestPoint(p, b), sqrt, offset);
    ExampleLength(offset, sqrt);
  }

  lemma ExampleClosest(p: Vec3, b: Box)
    requires ExampleHit(p, b)
    ensures ClosestPoint(p, b) == Vec3(0.0, 0.3, 0.0)
    ensures Sub(p, ClosestPoint(p, b)) == Vec3(-0.2, 0.0, 0.0)
  {
    assert Clamp(p.x, b.min.x, b.max.x) == 0.0;
    assert Clamp(p.y, b.min.y, b.max.y) == 0.3;
    assert Clamp(p.z, b.min.z, b.max.z) == 0.0;
  }

  lemma ExampleNormal(p: Vec3, b: Box, sqrt: real -> real)
    requires IsSqrt(sqrt)
    requires ExampleHit(p, b)
    ensures ContactNormal(p, b, sqrt) == Vec3(-1.0, 0.0, 0.0)
  {
    var offset := Vec3(-0.2, 0.0, 0.0);
    ExampleOffset(p, b, sqrt);
    ExampleLength(offset, sqrt);
    ExampleUnit(offset);
    NormalFromOffset(p, b, sqrt, offset, 0.2);
  }

  lemma ExampleLength(offset: Vec3, sqrt: real -> real)
    requires IsSqrt(sqrt)
    requires offset == Vec3(-0.2, 0.0, 0.0)
    ensures Length(offset, sqrt) == 0.2
  {
    OnXAxis(-0.2, 0.04);
    SqrtOf(sqrt, 0.04, 0.2);
  }

  lemma ExampleUnit(offset: Vec3)
    requires offset == Vec3(-0.2, 0.0, 0.0)
    ensures Scale(offset, 1.0 / 0.2) == Vec3(-1.0, 0.0, 0.0)
  {
  }

  /** Outside the box the normal is the offset from the closest point divided by its length. */
  lemma NormalFromOffset(p: Vec3, b: Box, sqrt: real -> real, offset: Vec3, len: real)
    requires IsSqrt(sqrt)
    requires Sub(p, ClosestPoint(p, b)) == offset && offset != Zero
    requires Length(offset, sqrt) == len
    ensures ContactNormal(p, b, sqrt) == Scale(offset, 1.0 / len)
  {
    SubZero(p, ClosestPoint(p, b));
    NormalOutside(p, b, sqrt);
    NormalizeBy(offset, sqrt, len);
  }

  lemma OnXAxis(a: real, a2: real)
    requires a * a == a2
    ensures Norm2(Vec3(a, 0.0, 0.0)) == a2
  {
  }

  /**
   In the example, with the marble moving right at speed 5, the wall step as
   written leaves it moving right at 4.90925; corrected, it bounces back left
   at 2.5, half its speed.
   */
  lemma AsWrittenCounterexample(m: Marble, b: Box, sqrt: real -> real)
    requires IsSqrt(sqrt)
    requires ExampleHit(m.position, b) && m.velocity == Vec3(5.0, 0.0, 0.0)
    ensures ResolveWallAsWritten(m, b, sqrt).velocity.x == 4.90925
    ensures ResolveWall(m, b, sqrt).velocity.x == -2.5
  {
    ExampleContact(m.position, b, sqrt);
    ExampleAsWritten(m, b, sqrt);
    ExampleCorrected(m, b, sqrt);
  }

  lemma ExampleAsWritten(m: Marble, b: Box, sqrt: real -> real)
    requires IsSqrt(sqrt)
    requires FindContact(m.position, b, sqrt) == Touching(Vec3(-1.0, 0.0, 0.0), 0.2)
    requires m.velocity == Vec3(5.0, 0.0, 0.0)
    ensures ResolveWallAsWritten(m, b, sqrt).velocity.x == 4.90925
  {
    var n := Vec3(-1.0, 0.0, 0.0);
    WallStepsAt(m, b, sqrt, n, 0.2);
    ExampleReflections(m.velocity, n, Scale(n, PushDistance(0.2)));
  }

  lemma ExampleCorrected(m: Marble, b: Box, sqrt: real -> real)
    requires IsSqrt(sqrt)
    requires FindContact(m.position, b, sqrt) == Touching(Vec3(-1.0, 0.0, 0.0), 0.2)
    requires m.velocity == Vec3(5.0, 0.0, 0.0)
    ensures ResolveWall(m, b, sqrt).velocity.x == -2.5
  {
    var n := Vec3(-1.0, 0.0, 0.0);
    WallStepsAt(m, b, sqrt, n, 0.2);
    ExampleReflections(m.velocity, n, Scale(n, PushDistance(0.2)));
  }

  /** Both wall steps, once the contact is known. */
  lemma WallStepsAt(m: Marble, b: Box, sqrt: real -> real, n: Vec3, dist: real)
    requires IsSqrt(sqrt)
    requires FindContact(m.position, b, sqrt) == Touching(n, dist)
    ensures ResolveWall(m, b, sqrt).velocity == Reflect(m.velocity, n)
    ensures ResolveWallAsWritten(m, b, sqrt).velocity == Reflect(m.velocity, Scale(n, PushDistance(dist)))
  {
  }

  lemma ExampleReflections(v: Vec3, n: Vec3, scaled: Vec3)
    requires v == Vec3(5.0, 0.0, 0.0) && n == Vec3(-1.0, 0.0, 0.0) && scaled == Scale(n, PushDistance(0.2))
    ensures Reflect(v, scaled).x == 4.90925
    ensures Reflect(v, n).x == -2.5
  {
    assert scaled == Vec3(-0.11, 0.0, 0.0);
  }

  /**
   After the push the marble no longer overlaps a wall it touched from
   outside: the closest point of the box stays the same, and the centre now
   sits `marbleRadius + 0.01` out along the (unit) contact normal from it.
   */
  lemma NoResidualOverlap(m: Marble, b: Box, sqrt: real -> real)
    requires IsSqrt(sqrt)
    requires WellFormed(b)
    requires FindContact(m.position, b, sqrt).Touching?
    requires m.position != ClosestPoint(m.position, b)
    ensures var p := ResolveWall(m, b, sqrt).position;
      && ClosestPoint(p, b) == ClosestPoint(m.position, b)
      && Sub(p, ClosestPoint(p, b)) == Scale(FindContact(m.position, b, sqrt).normal, C.MarbleRadius + C.PushMargin)
      && FindContact(p, b, sqrt) == NoContact
  {
    var pos := m.position;
    var cp := ClosestPoint(pos, b);
    var c := FindContact(pos, b, sqrt);
    var n := c.normal;
    var dist := c.distance;
    var s := PushDistance(dist);
    var p := Add(pos, Scale(n, s));
    assert p == ResolveWall(m, b, sqrt).position;
    ContactTest(pos, b, sqrt);
    ContactNormalFacts(pos, b, sqrt);
    assert 0.0 < dist && Norm2(n) == 1.0 && Scale(n, dist) == Sub(pos, cp);
    PushKeepsClosest(pos, b, n, dist, s);
    PushedOffset(pos, cp, n, dist, s);
    assert dist + s == C.MarbleRadius + C.PushMargin;
    assert Dist2(p, cp) == Sq(C.MarbleRadius + C.PushMargin) by {
      Norm2Scale(n, dist + s);
    }
    SqLt(C.MarbleRadius, C.MarbleRadius + C.PushMargin);
    ContactTest(p, b, sqrt);
  }

  /** Pushing by `s` along `n` moves the offset `n * dist` out to `n * (dist + s)`. */
  lemma PushedOffset(pos: Vec3, cp: Vec3, n: Vec3, dist: real, s: real)
    requires Scale(n, dist) == Sub(pos, cp)
    ensures Sub(Add(pos, Scale(n, s)), cp) == Scale(n, dist + s)
  {
    assert n.x * dist + n.x * s == n.x * (dist + s);
    assert n.y * dist + n.y * s == n.y * (dist + s);
    assert n.z * dist + n.z * s == n.z * (dist + s);
  }

  /** A push outward along the contact normal leaves the closest point of the box where it was. */
  lemma PushKeepsClosest(pos: Vec3, b: Box, n: Vec3, dist: real, s: real)
    requires WellFormed(b) && 0.0 < dist && 0.0 < s
    requires Scale(n, dist) == Sub(pos, ClosestPoint(pos, b))
    ensures ClosestPoint(Add(pos, Scale(n, s)), b) == ClosestPoint(pos, b)
  {
    PushKeepsAxis(pos, b, n, dist, s, X);
    PushKeepsAxis(pos, b, n, dist, s, Y);
    PushKeepsAxis(pos, b, n, dist, s, Z);
  }

  datatype Axis = X | Y | Z

  function Coord(v: Vec3, a: Axis): real {
    match a
    case X => v.x
    case Y => v.y
    case Z => v.z
  }

  /** The push keeps the closest point's coordinate on one axis. */
  lemma PushKeepsAxis(pos: Vec3, b: Box, n: Vec3, dist: real, s: real, a: Axis)
    requires WellFormed(b) && 0.0 < dist && 0.0 < s
    requires Scale(n, dist) == Sub(pos, ClosestPoint(pos, b))
    ensures Coord(ClosestPoint(Add(pos, Scale(n, s)), b), a) == Coord(ClosestPoint(pos, b), a)
  {
    match a
    case X => AxisStaysClamped(pos.x, b.min.x, b.max.x, n.x, dist, s);
    case Y => AxisStaysClamped(pos.y, b.min.y, b.max.y, n.y, dist, s);
    case Z => AxisStaysClamped(pos.z, b.min.z, b.max.z, n.z, dist, s);
  }

  /** Moving outward along the normal keeps the clamped coordinate where it was. */
  lemma AxisStaysClamped(v: real, lo: real, hi: real, nv: real, dist: real, s: real)
    requires lo <= hi && 0.0 < dist && 0.0 < s
    requires nv * dist == v - Clamp(v, lo, hi)
    ensures Clamp(v + nv * s, lo, hi) == Clamp(v, lo, hi)
  {
    if v < lo {
      if 0.0 <= nv {
        MulNonneg(nv, dist);
      }
      MulPos(-nv, s);
    } else if hi < v {
      if nv <= 0.0 {
        MulNonneg(-nv, dist);
      }
      MulPos(nv, s);
    } else {
      if nv != 0.0 {
        if 0.0 < nv {
          MulPos(nv, dist);
        } else {
          MulPos(-nv, dist);
        }
      }
    }
  }

  // ------------------------------------------------------------ all walls

  /** The marble does not overlap any of the walls. */
  ghost predicate ClearOf(p: Vec3, walls: seq<Box>) {
    forall i :: 0 <= i < |walls| ==> Sq(C.MarbleRadius) <= Dist2(p, ClosestPoint(p, walls[i]))
  }

  /** The walls one after another, in the order given (`forEach`), each with the wall step as written. */
  function ResolveWalls(m: Marble, walls: seq<Box>, sqrt: real -> real): (r: Marble)
    requires IsSqrt(sqrt)
    ensures r.angularVelocity == m.angularVelocity
    decreases |walls|
  {
    if |walls| == 0 then m else ResolveWalls(ResolveWallAsWritten(m, walls[0], sqrt), walls[1..], sqrt)
  }

  /** No wall step speeds the marble up. */
  lemma {:induction false} ResolveWallsSlows(m: Marble, walls: seq<Box>, sqrt: real -> real)
    requires IsSqrt(sqrt)
    ensures Norm2(ResolveWalls(m, walls, sqrt).velocity) <= Norm2(m.velocity)
    decreases |walls|
  {
    if |walls| > 0 {
      var m1 := ResolveWallAsWritten(m, walls[0], sqrt);
      ResolveWallAsWrittenSlows(m, walls[0], sqrt);
      ResolveWallsSlows(m1, walls[1..], sqrt);
    }
  }

  /** A marble clear of every wall passes through unchanged. */
  lemma {:induction false} ResolveWallsClear(m: Marble, walls: seq<Box>, sqrt: real -> real)
    requires IsSqrt(sqrt)
    requires ClearOf(m.position, walls)
    ensures ResolveWalls(m, walls, sqrt) == m
    decreases |walls|
  {
    if |walls| > 0 {
      ResolveWallClear(m, walls[0], sqrt);
      assert ClearOf(m.position, walls[1..]) by {
        forall i | 0 <= i < |walls[1..]|
          ensures Sq(C.MarbleRadius) <= Dist2(m.position, ClosestPoint(m.position, walls[1..][i]))
        {
          assert walls[1..][i] == walls[i + 1];
        }
      }
      ResolveWallsClear(m, walls[1..], sqrt);
    }
  }

  // ------------------------------------------------------- platform edges

  /**
   One horizontal axis against the platform edge: a coordinate beyond
   `halfSize` is put back on the edge, on its own side, and that velocity
   component is reversed and halved.
   */
  function EdgeAxis(x: real, vx: real): (r: (real, real))
    ensures Abs(r.0) <= C.HalfSize
    ensures Abs(x) <= C.HalfSize ==> r == (x, vx)
    ensures C.HalfSize < x ==> r.0 == C.HalfSize
    ensures x < -C.HalfSize ==> r.0 == -C.HalfSize
    ensures C.HalfSize < Abs(x) ==> r.1 == -C.BounceDamping * vx
  {
    if Abs(x) > C.HalfSize then (Sign(x) * C.HalfSize, vx * -C.BounceDamping) else (x, vx)
  }

  /** The platform edge on x, then on z. */
  function ClampToPlatform(m: Marble): (r: Marble)
    ensures Abs(r.position.x) <= C.HalfSize && Abs(r.position.z) <= C.HalfSize
    ensures r.position.y == m.position.y && r.velocity.y == m.velocity.y
    ensures r.angularVelocity == m.angularVelocity
    ensures Abs(m.position.x) <= C.HalfSize ==> r.position.x == m.position.x && r.velocity.x == m.velocity.x
    ensures Abs(m.position.z) <= C.HalfSize ==> r.position.z == m.position.z && r.velocity.z == m.velocity.z
    ensures C.HalfSize < Abs(m.position.x) ==> r.velocity.x == -C.BounceDamping * m.velocity.x
    ensures C.HalfSize < Abs(m.position.z) ==> r.velocity.z == -C.BounceDamping * m.velocity.z
    ensures C.HalfSize < m.position.x ==> r.position.x == C.HalfSize
    ensures m.position.x < -C.HalfSize ==> r.position.x == -C.HalfSize
    ensures C.HalfSize < m.position.z ==> r.position.z == C.HalfSize
    ensures m.position.z < -C.HalfSize ==> r.position.z == -C.HalfSize
  {
    var ex := EdgeAxis(m.position.x, m.velocity.x);
    var ez := EdgeAxis(m.position.z, m.velocity.z);
    m.(position := Vec3(ex.0, m.position.y, ez.0), velocity := Vec3(ex.1, m.velocity.y, ez.1))
  }

  // ------------------------------------------------------ ceiling and floor

  /** The ceiling first, then the floor; either one stops vertical motion. */
  function ClampHeight(m: Marble): (r: Marble)
    ensures C.MarbleRadius <= r.position.y <= C.CeilingHeight
    ensures C.MarbleRadius <= m.position.y <= C.CeilingHeight ==> r == m
    ensures !(C.MarbleRadius <= m.position.y <= C.CeilingHeight) ==> r.velocity.y == 0.0
    ensures C.CeilingHeight < m.position.y ==> r.position.y == C.CeilingHeight
    ensures m.position.y < C.MarbleRadius ==> r.position.y == C.MarbleRadius
    ensures r.position.x == m.position.x && r.position.z == m.position.z
    ensures r.velocity.x == m.velocity.x && r.velocity.z == m.velocity.z
    ensures r.angularVelocity == m.angularVelocity
  {
    var m1 := if m.position.y > C.CeilingHeight
      then m.(position := m.position.(y := C.CeilingHeight), velocity := m.velocity.(y := 0.0))
      else m;
    if m1.position.y < C.MarbleRadius
    then m1.(position := m1.position.(y := C.MarbleRadius), velocity := m1.velocity.(y := 0.0))
    else m1
  }

  // ------------------------------------------------------------- the whole

  /** Where every frame leaves the marble's centre. */
  predicate InBounds(p: Vec3) {
    && Abs(p.x) <= C.HalfSize
    && Abs(p.z) <= C.HalfSize
    && C.MarbleRadius <= p.y <= C.CeilingHeight
  }

  /**
   `checkWallCollisions`: afterwards the marble is within the platform and
   between floor and ceiling.
   */
  function CheckWallCollisions(m: Marble, walls: seq<Box>, sqrt: real -> real): (r: Marble)
    requires IsSqrt(sqrt)
    ensures InBounds(r.position)
    ensures r.angularVelocity == m.angularVelocity
  {
    ClampHeight(ClampToPlatform(ResolveWalls(m, walls, sqrt)))
  }

  /** No part of the collision pass speeds the marble up. */
  lemma CheckWallCollisionsSlows(m: Marble, walls: seq<Box>, sqrt: real -> real)
    requires IsSqrt(sqrt)
    ensures Norm2(CheckWallCollisions(m, walls, sqrt).velocity) <= Norm2(m.velocity)
  {
    var m1 := ResolveWalls(m, walls, sqrt);
    ResolveWallsSlows(m, walls, sqrt);
    SlowerAfterEdges(m1, ClampToPlatform(m1), ClampHeight(ClampToPlatform(m1)));
  }

  /** A marble clear of every wall and already in bounds passes through unchanged. */
  lemma CheckWallCollisionsClear(m: Marble, walls: seq<Box>, sqrt: real -> real)
    requires IsSqrt(sqrt)
    requires ClearOf(m.position, walls) && InBounds(m.position)
    ensures CheckWallCollisions(m, walls, sqrt) == m
  {
    ResolveWallsClear(m, walls, sqrt);
  }

  lemma SlowerAfterEdges(m1: Marble, m2: Marble, m3: Marble)
    requires m2 == ClampToPlatform(m1) && m3 == ClampHeight(m2)
    ensures Norm2(m3.velocity) <= Norm2(m1.velocity)
  {
    SlowerAxis(m1.position.x, m1.velocity.x);
    SlowerAxis(m1.position.z, m1.velocity.z);
    SqNonneg(m2.velocity.y);
    SqNonneg(m1.velocity.y);
  }

  lemma SlowerAxis(x: real, vx: real)
    ensures Sq(EdgeAxis(x, vx).1) <= Sq(vx)
  {
    SqNonneg(vx);
    assert Sq(vx * -C.BounceDamping) == 0.25 * Sq(vx);
  }
}

=== FILE: constants.dfy ===
/**
 The fixed numbers of the marble game, with the values the game declares.
 `maxAngle` (a quarter turn, an irrational number of radians) is not among
 them: it is a field of the tilt record.
 */
module Constants {

  /** Gravity strength (`GRAVITY`). */
  const Gravity: real := 20.0

  /** Velocity multiplier applied once per frame (`FRICTION`). */
  const Friction: real := 0.96

  /** Fraction of the normal speed kept by a bounce (`BOUNCE_DAMPING`). */
  const BounceDamping: real := 0.5

  /** Side of the square platform (`platformSize`). */
  const PlatformSize: real := 10.0

  const MarbleRadius: real := 0.3

  /** Height of the invisible ceiling above the platform (`ceilingHeight`). */
  const CeilingHeight: real := 5.0

  const GoalRadius: real := 0.6

  /** The goal's centre on the platform; its height plays no part in winning. */
  const GoalX: real := 3.5
  const GoalZ: real := 3.5

  /** Where `resetMarble` puts the marble. */
  const SpawnX: real := -3.5
  const SpawnZ: real := -3.5

  /** Target-angle change per frame while an arrow key is held. */
  const TiltSpeed: real := 0.02

  /** Fraction of the remaining gap the current tilt closes each frame. */
  const Smoothing: real := 0.1

  /** Longest frame the physics integrates. */
  const MaxDt: real := 0.1

  /** Extra distance a wall contact pushes the marble out by. */
  const PushMargin: real := 0.01

  /** A normal shorter than this counts as zero. */
  const NormalEpsilon: real := 0.001

  /** How far the marble's centre may go from the platform centre on x and z. */
  const HalfSize: real := PlatformSize / 2.0 - MarbleRadius
}

=== FILE: game.dfy ===
/**
 One animation frame of the whole game, and the win latch.

 The game's state is the marble, the platform tilt and the `gameWon` flag.
 A frame first moves the tilt (arrow keys, then smoothing), turns the new
 tilt into a gravity direction, and then runs `updatePhysics`: nothing at
 all once the game is won; otherwise integrate, resolve collisions, and test
 for the goal. The `R` key runs `resetMarble`, which puts the marble back at
 the spawn point and clears the flag but leaves the tilt alone.

 The platform's rotation matrix needs sine and cosine; like the square root
 they are oracle parameters, and nothing about them is assumed except where a
 lemma says so.
 */
module Game {
  import opened Vectors
  import opened Tilt
  import opened Marble
  import opened Collision
  import C = Constants

  datatype State = State(marble: Marble, tilt: TiltState, won: bool)

  /** The state the page starts in: the marble at the spawn point, the platform level. */
  function InitialState(maxAngle: real): State {
    State(Spawn, InitialTilt(maxAngle), false)
  }

  // ------------------------------------------------------------------ goal

  /** Squared distance from the goal's centre, measured in the platform's plane. */
  function GoalDist2(p: Vec3): real {
    Sq(p.x - C.GoalX) + Sq(p.z - C.GoalZ)
  }

  /** The game's test: the planar distance to the goal (`Vector2.length`) is below `goalRadius`. */
  function InGoal(p: Vec3, sqrt: real -> real): bool
    requires IsSqrt(sqrt)
  {
    SumSqNonneg(p.x - C.GoalX, p.z - C.GoalZ);
    sqrt(GoalDist2(p)) < C.GoalRadius
  }

  /** The distance test is a test on the squared distance against `goalRadius²`. */
  lemma InGoalSquared(p: Vec3, sqrt: real -> real)
    requires IsSqrt(sqrt)
    ensures InGoal(p, sqrt) <==> GoalDist2(p) < Sq(C.GoalRadius)
  {
    SumSqNonneg(p.x - C.GoalX, p.z - C.GoalZ);
    SqrtLess(sqrt, GoalDist2(p), C.GoalRadius);
  }

  /**
   `checkWinCondition`: the flag is set when the marble is within reach of
   the goal and never cleared; the marble and tilt are not touched.
   */
  function CheckWin(g: State, sqrt: real -> real): (r: State)
    requires IsSqrt(sqrt)
    ensures r.marble == g.marble && r.tilt == g.tilt
    ensures r.won <==> g.won || GoalDist2(g.marble.position) < Sq(C.GoalRadius)
  {
    InGoalSquared(g.marble.position, sqrt);
    if InGoal(g.marble.position, sqrt) && !g.won then g.(won := true) else g
  }

  // ----------------------------------------------------------------- reset

  /** `resetMarble`: the marble back at the spawn point, at rest, and the flag cleared; the tilt is kept. */
  function ResetMarble(g: State): (r: State)
    ensures !r.won && r.tilt == g.tilt
    ensures r.marble.position == Vec3(-3.5, C.MarbleRadius, -3.5)
    ensures r.marble.velocity == Zero && r.marble.angularVelocity == Zero
  {
    g.(marble := Spawn, won := false)
  }

  /** Resetting twice is resetting once, and a freshly reset game is neither won nor about to be. */
  lemma ResetIdempotent(g: State, sqrt: real -> real)
    requires IsSqrt(sqrt)
    ensures ResetMarble(ResetMarble(g)) == ResetMarble(g)
    ensures InBounds(ResetMarble(g).marble.position)
    ensures !CheckWin(ResetMarble(g), sqrt).won
  {
    assert GoalDist2(Spawn.position) == 98.0;
  }

  // --------------------------------------------------------------- physics

  /**
   The platform's rotation (x angle, then z angle; y stays 0) applied to
   straight down, `(0, -1, 0)`: `(sin z, -cos x cos z, -sin x cos z)`.
   */
  function GravityDir(t: TiltState, sin: real -> real, cos: real -> real): (d: Vec3)
    ensures sin(t.currentX) == 0.0 && sin(t.currentZ) == 0.0 ==> d.x == 0.0 && d.z == 0.0
    ensures sin(t.currentZ) == 0.0 && cos(t.currentZ) == 1.0 ==> d == Vec3(0.0, -cos(t.currentX), -sin(t.currentX))
  {
    Vec3(sin(t.currentZ), -cos(t.currentX) * cos(t.currentZ), -sin(t.currentX) * cos(t.currentZ))
  }

  /** A rotation keeps lengths: the gravity direction is a unit vector whenever `sin² + cos² = 1`. */
  lemma GravityDirUnit(t: TiltState, sin: real -> real, cos: real -> real)
    requires Sq(sin(t.currentX)) + Sq(cos(t.currentX)) == 1.0
    requires Sq(sin(t.currentZ)) + Sq(cos(t.currentZ)) == 1.0
    ensures Norm2(GravityDir(t, sin, cos)) == 1.0
  {
    var sx, cx, sz, cz := sin(t.currentX), cos(t.currentX), sin(t.currentZ), cos(t.currentZ);
    assert Sq(-cx * cz) == Sq(cx) * Sq(cz);
    assert Sq(-sx * cz) == Sq(sx) * Sq(cz);
    assert Sq(cx) * Sq(cz) + Sq(sx) * Sq(cz) == (Sq(sx) + Sq(cx)) * Sq(cz);
  }

  /** A level platform pulls the marble nowhere along it. */
  lemma LevelHasNoPull(t: TiltState, sin: real -> real, cos: real -> real)
    requires sin(0.0) == 0.0
    requires t.currentX == 0.0 && t.currentZ == 0.0
    ensures GravityForce(GravityDir(t, sin, cos)) == Zero
  {
  }

  /**
   `updatePhysics`: once the game is won it changes nothing; otherwise the
   marble is integrated over the clamped frame time, collided, and ends in
   bounds, and the flag records whether it reached the goal.
   */
  function UpdatePhysics(g: State, deltaTime: real, gravityDir: Vec3, walls: seq<Box>, sqrt: real -> real): (r: State)
    requires IsSqrt(sqrt)
    ensures g.won ==> r == g
    ensures r.tilt == g.tilt
    ensures !g.won ==> InBounds(r.marble.position)
    ensures r.won <==> g.won || GoalDist2(r.marble.position) < Sq(C.GoalRadius)
  {
    if g.won then
      g
    else
      var dt := EffectiveDt(deltaTime);
      var m := CheckWallCollisions(Integrate(g.marble, gravityDir, dt), walls, sqrt);
      CheckWin(g.(marble := m), sqrt)
  }

  /** The marble steps of a frame that is not frozen, one after another. */
  function PhysicsMarble(m: Marble, deltaTime: real, gravityDir: Vec3, walls: seq<Box>, sqrt: real -> real): Marble
    requires IsSqrt(sqrt)
  {
    CheckWallCollisions(Integrate(m, gravityDir, EffectiveDt(deltaTime)), walls, sqrt)
  }

  /** A physics step that is not frozen moves the marble exactly by `PhysicsMarble`. */
  lemma PhysicsMoves(g: State, deltaTime: real, gravityDir: Vec3, walls: seq<Box>, sqrt: real -> real)
    requires IsSqrt(sqrt) && !g.won
    ensures UpdatePhysics(g, deltaTime, gravityDir, walls, sqrt).marble == PhysicsMarble(g.marble, deltaTime, gravityDir, walls, sqrt)
  {
  }

  /**
   On a level platform a frame never speeds the marble up: friction scales
   the velocity down, and no collision adds speed.
   */
  lemma LevelFrameSlows(g: State, deltaTime: real, gravityDir: Vec3, walls: seq<Box>, sqrt: real -> real)
    requires IsSqrt(sqrt)
    requires gravityDir.x == 0.0 && gravityDir.z == 0.0
    ensures Norm2(UpdatePhysics(g, deltaTime, gravityDir, walls, sqrt).marble.velocity) <= Norm2(g.marble.velocity)
  {
    if !g.won {
      var m1 := Integrate(g.marble, gravityDir, EffectiveDt(deltaTime));
      LevelOnlySlows(g.marble, gravityDir, EffectiveDt(deltaTime));
      CheckWallCollisionsSlows(m1, walls, sqrt);
      PhysicsMoves(g, deltaTime, gravityDir, walls, sqrt);
    }
  }

  /**
   A marble at rest on the floor of a level platform, clear of the walls and
   inside the platform, stays exactly where it is.
   */
  lemma RestStaysAtRest(m: Marble, deltaTime: real, gravityDir: Vec3, walls: seq<Box>, sqrt: real -> real)
    requires IsSqrt(sqrt)
    requires gravityDir.x == 0.0 && gravityDir.z == 0.0
    requires m.velocity == Zero && m.position.y == C.MarbleRadius
    requires InBounds(m.position) && ClearOf(m.position, walls)
    ensures PhysicsMarble(m, deltaTime, gravityDir, walls, sqrt) == m
  {
    IntegrateAtRest(m, gravityDir, EffectiveDt(deltaTime));
    CheckWallCollisionsClear(m, walls, sqrt);
  }

  // ----------------------------------------------------------------- frames

  /** What happens between two frames: an animation frame, or the `R` key. */
  datatype Event =
    | Frame(keys: Keys, deltaTime: real, walls: seq<Box>)
    | ResetKey

  /** `animate`: the tilt moves every frame, won or not, and the physics runs under the new tilt. */
  function Animate(g: State, keys: Keys, deltaTime: real, walls: seq<Box>,
                   sin: real -> real, cos: real -> real, sqrt: real -> real): (r: State)
    requires IsSqrt(sqrt)
    ensures r.tilt == TiltStep(g.tilt, keys)
    ensures g.won ==> r.won && r.marble == g.marble
    ensures !g.won ==> r.marble == PhysicsMarble(g.marble, deltaTime, GravityDir(r.tilt, sin, cos), walls, sqrt)
    ensures !g.won ==> InBounds(r.marble.position)
    ensures r.won <==> g.won || GoalDist2(r.marble.position) < Sq(C.GoalRadius)
  {
    var t := TiltStep(g.tilt, keys);
    UpdatePhysics(g.(tilt := t), deltaTime, GravityDir(t, sin, cos), walls, sqrt)
  }

  /**
   One event: a frame runs `animate`; the `R` key runs `resetMarble`, which
   returns the marble to the spawn point and clears the flag but keeps the tilt.
   */
  function Step(g: State, e: Event, sin: real -> real, cos: real -> real, sqrt: real -> real): (r: State)
    requires IsSqrt(sqrt)
    ensures e.ResetKey? ==> !r.won && r.marble == Spawn && r.tilt == g.tilt
    ensures e.Frame? ==> r.tilt == TiltStep(g.tilt, e.keys)
    ensures e.Frame? && g.won ==> r.won && r.marble == g.marble
    ensures e.Frame? && !g.won ==> InBounds(r.marble.position)
    ensures e.Frame? && !g.won ==> r.marble == PhysicsMarble(g.marble, e.deltaTime, GravityDir(r.tilt, sin, cos), e.walls, sqrt)
    ensures e.Frame? ==> (r.won <==> g.won || GoalDist2(r.marble.position) < Sq(C.GoalRadius))
  {
    match e
    case Frame(keys, deltaTime, walls) => Animate(g, keys, deltaTime, walls, sin, cos, sqrt)
    case ResetKey => ResetMarble(g)
  }

  function Run(g: State, events: seq<Event>, sin: real -> real, cos: real -> real, sqrt: real -> real): State
    requires IsSqrt(sqrt)
    decreases |events|
  {
    if |events| == 0 then g else Run(Step(g, events[0], sin, cos, sqrt), events[1..], sin, cos, sqrt)
  }

  /** The tilt stays within its limits and the marble within the platform, floor and ceiling. */
  ghost predicate Invariant(g: State) {
    Valid(g.tilt) && InBounds(g.marble.position)
  }

  lemma InitialInvariant(maxAngle: real)
    requires 0.0 <= maxAngle
    ensures Invariant(InitialState(maxAngle))
  {
  }

  /** No event breaks the invariant. */
  lemma StepKeepsInvariant(g: State, e: Event, sin: real -> real, cos: real -> real, sqrt: real -> real)
    requires IsSqrt(sqrt) && Invariant(g)
    ensures Invariant(Step(g, e, sin, cos, sqrt))
  {
  }

  lemma {:induction false} RunKeepsInvariant(g: State, events: seq<Event>, sin: real -> real, cos: real -> real, sqrt: real -> real)
    requires IsSqrt(sqrt) && Invariant(g)
    ensures Invariant(Run(g, events, sin, cos, sqrt))
    decreases |events|
  {
    if |events| > 0 {
      StepKeepsInvariant(g, events[0], sin, cos, sqrt);
      RunKeepsInvariant(Step(g, events[0], sin, cos, sqrt), events[1..], sin, cos, sqrt);
    }
  }

  predicate NoReset(events: seq<Event>) {
    forall i :: 0 <= i < |events| ==> events[i].Frame?
  }

  /**
   Once won, the game stays won and the marble stays put until the `R` key;
   only the tilt keeps following the arrow keys.
   */
  lemma {:induction false} WonFreezes(g: State, events: seq<Event>, sin: real -> real, cos: real -> real, sqrt: real -> real)
    requires IsSqrt(sqrt) && g.won && NoReset(events)
    ensures Run(g, events, sin, cos, sqrt).won
    ensures Run(g, events, sin, cos, sqrt).marble == g.marble
    decreases |events|
  {
    if |events| > 0 {
      var g1 := Step(g, events[0], sin, cos, sqrt);
      assert events[0].Frame?;
      assert g1.won && g1.marble == g.marble;
      assert NoReset(events[1..]) by {
        forall i | 0 <= i < |events[1..]| ensures events[1..][i].Frame? {
          assert events[1..][i] == events[i + 1];
        }
      }
      WonFreezes(g1, events[1..], sin, cos, sqrt);
    }
  }

  /**
   The flag is a latch: an event clears it only if it is the `R` key, and
   sets it only when the marble ends the frame within reach of the goal.
   */
  lemma StepLatch(g: State, e: Event, sin: real -> real, cos: real -> real, sqrt: real -> real)
    requires IsSqrt(sqrt)
    ensures var r := Step(g, e, sin, cos, sqrt);
      && (g.won && !r.won ==> e.ResetKey?)
      && (!g.won && r.won ==> e.Frame? && GoalDist2(r.marble.position) < Sq(C.GoalRadius))
  {
  }
}

=== FILE: jsmath.dfy ===
/**
 The JavaScript `Math` functions the simulation calls, over the reals.
 */
module JsMath {

  /** `Math.min`. */
  function Min(a: real, b: real): (r: real)
    ensures r <= a && r <= b
    ensures r == a || r == b
  {
    if a <= b then a else b
  }

  /** `Math.max`. */
  function Max(a: real, b: real): (r: real)
    ensures a <= r && b <= r
    ensures r == a || r == b
  {
    if a >= b then a else b
  }

  /** `Math.abs`. */
  function Abs(a: real): (r: real)
    ensures 0.0 <= r
    ensures r == a || r == -a
  {
    if a < 0.0 then -a else a
  }

  /** `Math.sign`: -1, 0 or 1 (the sign of zero is zero). */
  function Sign(a: real): (r: real)
    ensures r * a == Abs(a)
    ensures r == 1.0 || r == -1.0 || (r == 0.0 && a == 0.0)
  {
    if a > 0.0 then 1.0 else if a < 0.0 then -1.0 else 0.0
  }
}

=== FILE: marble.dfy ===
/**
 The marble's physics state and the integration half of `updatePhysics`:
 clamp the frame time, push the velocity along the platform's downhill
 direction, apply friction, move, and put the marble back on the floor.

 The gravity direction is the platform's rotation applied to straight down;
 computing it takes trigonometry, so it is an input here.
 */
module Marble {
  import opened Vectors
  import opened JsMath
  import C = Constants

  datatype Marble = Marble(position: Vec3, velocity: Vec3, angularVelocity: Vec3)

  /** Where the game starts and `resetMarble` puts the marble: at rest, on the floor. */
  const Spawn: Marble := Marble(Vec3(C.SpawnX, C.MarbleRadius, C.SpawnZ), Zero, Zero)

  /** `Math.min(deltaTime, 0.1)`. */
  function EffectiveDt(deltaTime: real): (dt: real)
    ensures dt <= C.MaxDt && dt <= deltaTime
    ensures deltaTime <= C.MaxDt ==> dt == deltaTime
    ensures C.MaxDt <= deltaTime ==> dt == C.MaxDt
  {
    Min(deltaTime, C.MaxDt)
  }

  /**
   The force gravity exerts along the platform: the horizontal part of the
   gravity direction, reversed and scaled. It has no vertical part and points
   downhill.
   */
  function GravityForce(gravityDir: Vec3): (f: Vec3)
    ensures f.y == 0.0
    ensures gravityDir.x == 0.0 && gravityDir.z == 0.0 <==> f == Zero
  {
    Vec3(-gravityDir.x * C.Gravity, 0.0, -gravityDir.z * C.Gravity)
  }

  /** The force points against the uphill direction, in proportion to the slope squared. */
  lemma GravityForceDownhill(gravityDir: Vec3)
    ensures Dot(GravityForce(gravityDir), Uphill(gravityDir)) == -C.Gravity * (Sq(gravityDir.x) + Sq(gravityDir.z))
    ensures Dot(GravityForce(gravityDir), Uphill(gravityDir)) <= 0.0
  {
    SumSqNonneg(gravityDir.x, gravityDir.z);
  }

  /** The force is exactly the uphill direction reversed and scaled by `GRAVITY`: no sideways part. */
  lemma GravityForceAlongSlope(gravityDir: Vec3)
    ensures GravityForce(gravityDir) == Scale(Uphill(gravityDir), -C.Gravity)
  {
  }

  /** The horizontal part of the gravity direction: the platform's downhill direction, reversed. */
  function Uphill(gravityDir: Vec3): (h: Vec3)
    ensures h.y == 0.0
  {
    Vec3(gravityDir.x, 0.0, gravityDir.z)
  }

  /**
   One integration step over `dt`: velocity gains `force * dt` and is then
   scaled by `FRICTION`; the position moves by the NEW velocity times `dt`
   (semi-implicit Euler), and the height is then reset to the marble's radius.
   */
  function Integrate(m: Marble, gravityDir: Vec3, dt: real): (r: Marble)
    ensures r.position == Add(m.position, Scale(r.velocity, dt)).(y := C.MarbleRadius)
    ensures r.velocity.y == C.Friction * m.velocity.y
    ensures r.angularVelocity == m.angularVelocity
  {
    var v1 := Scale(Add(m.velocity, Scale(GravityForce(gravityDir), dt)), C.Friction);
    Marble(Add(m.position, Scale(v1, dt)).(y := C.MarbleRadius), v1, m.angularVelocity)
  }

  /**
   The force is added before friction is applied, so friction scales both the
   old velocity and the frame's gain from gravity.
   */
  lemma ForceThenFriction(m: Marble, gravityDir: Vec3, dt: real)
    ensures Integrate(m, gravityDir, dt).velocity
      == Add(Scale(m.velocity, C.Friction), Scale(GravityForce(gravityDir), dt * C.Friction))
  {
    var v := m.velocity;
    var f := GravityForce(gravityDir);
    assert (v.x + f.x * dt) * C.Friction == v.x * C.Friction + f.x * (dt * C.Friction);
    assert (v.y + f.y * dt) * C.Friction == v.y * C.Friction + f.y * (dt * C.Friction);
    assert (v.z + f.z * dt) * C.Friction == v.z * C.Friction + f.z * (dt * C.Friction);
  }

  /** On a level platform a frame only slows the marble down: its velocity is scaled by `FRICTION`. */
  lemma LevelOnlySlows(m: Marble, gravityDir: Vec3, dt: real)
    requires gravityDir.x == 0.0 && gravityDir.z == 0.0
    ensures Integrate(m, gravityDir, dt).velocity == Scale(m.velocity, C.Friction)
    ensures Norm2(Integrate(m, gravityDir, dt).velocity) <= Norm2(m.velocity)
  {
    var v := m.velocity;
    Norm2Scale(v, C.Friction);
    Norm2Nonneg(v);
    assert Sq(C.Friction) <= 1.0;
  }

  /** A marble at rest on the floor of a level platform does not move. */
  lemma IntegrateAtRest(m: Marble, gravityDir: Vec3, dt: real)
    requires gravityDir.x == 0.0 && gravityDir.z == 0.0
    requires m.velocity == Zero && m.position.y == C.MarbleRadius
    ensures Integrate(m, gravityDir, dt) == m
  {
    AtRestVelocity(m, gravityDir, dt);
    AtRestPosition(m, gravityDir, dt);
  }

  lemma AtRestVelocity(m: Marble, gravityDir: Vec3, dt: real)
    requires gravityDir.x == 0.0 && gravityDir.z == 0.0
    requires m.velocity == Zero
    ensures Integrate(m, gravityDir, dt).velocity == Zero
  {
    ScaleZero(dt);
    ScaleZero(C.Friction);
    assert Add(Zero, Zero) == Zero;
  }

  lemma AtRestPosition(m: Marble, gravityDir: Vec3, dt: real)
    requires m.position.y == C.MarbleRadius
    requires Integrate(m, gravityDir, dt).velocity == Zero
    ensures Integrate(m, gravityDir, dt).position == m.position
  {
    ScaleZero(dt);
    assert Add(m.position, Zero).(y := C.MarbleRadius) == m.position;
  }

  /**
   Gravity accelerates the marble downhill: over one frame the velocity's
   component along the uphill direction shrinks at least by the friction
   factor, and exactly by it when the platform is level.
   */
  lemma GravityPullsDownhill(m: Marble, gravityDir: Vec3, dt: real)
    requires 0.0 <= dt
    ensures Dot(Integrate(m, gravityDir, dt).velocity, Uphill(gravityDir))
      <= C.Friction * Dot(m.velocity, Uphill(gravityDir))
  {
    var h := Uphill(gravityDir);
    var f := GravityForce(gravityDir);
    var v1 := Scale(Add(m.velocity, Scale(f, dt)), C.Friction);
    assert Integrate(m, gravityDir, dt).velocity == v1;
    DotScaleAdd(m.velocity, f, dt, C.Friction, h);
    GravityForceDownhill(gravityDir);
    var d := Dot(f, h);
    MulNonneg(dt, -d);
    FrictionShrinks(Dot(m.velocity, h), dt * d);
  }

  lemma FrictionShrinks(a: real, x: real)
    requires x <= 0.0
    ensures C.Friction * (a + x) <= C.Friction * a
  {
  }
}

=== FILE: tilt.dfy ===
/**
 The platform tilt controller of the animation loop.

 Each held arrow key moves a target angle by `tiltSpeed`, clamped to
 `[-maxAngle, maxAngle]`: Up lowers the x target, Down raises it, Left lowers
 the z target, Right raises it, in that order. The current angles then move a
 tenth of the way toward the new targets.
 */
module Tilt {
  import opened JsMath
  import C = Constants

  /** Which arrow keys are held during a frame. */
  datatype Keys = Keys(up: bool, down: bool, left: bool, right: bool)

  const NoKeys: Keys := Keys(false, false, false, false)

  datatype TiltState = TiltState(
    targetX: real,
    targetZ: real,
    currentX: real,
    currentZ: real,
    tiltSpeed: real,
    maxAngle: real)

  /** The tilt the game starts with: level, with the default speed. */
  function InitialTilt(maxAngle: real): TiltState {
    TiltState(0.0, 0.0, 0.0, 0.0, C.TiltSpeed, maxAngle)
  }

  /** Every angle lies within the limit, and the speed is non-negative. */
  ghost predicate Valid(t: TiltState) {
    && 0.0 <= t.tiltSpeed
    && -t.maxAngle <= t.targetX <= t.maxAngle
    && -t.maxAngle <= t.targetZ <= t.maxAngle
    && -t.maxAngle <= t.currentX <= t.maxAngle
    && -t.maxAngle <= t.currentZ <= t.maxAngle
  }

  /** A held Up or Left key: one step down, but not below `-maxAngle`. */
  function Lower(a: real, speed: real, maxAngle: real): (r: real)
    ensures -maxAngle <= r
    ensures 0.0 <= speed && -maxAngle <= a <= maxAngle ==> r <= a
    ensures -maxAngle <= a - speed ==> r == a - speed
    ensures a - speed < -maxAngle ==> r == -maxAngle
  {
    Max(a - speed, -maxAngle)
  }

  /** A held Down or Right key: one step up, but not above `maxAngle`. */
  function Raise(a: real, speed: real, maxAngle: real): (r: real)
    ensures r <= maxAngle
    ensures 0.0 <= speed && -maxAngle <= a <= maxAngle ==> a <= r
    ensures a + speed <= maxAngle ==> r == a + speed
    ensures maxAngle < a + speed ==> r == maxAngle
  {
    Min(a + speed, maxAngle)
  }

  /** The four key tests, in the order the animation loop makes them. */
  function StepTargets(t: TiltState, k: Keys): (r: TiltState)
    ensures r.currentX == t.currentX && r.currentZ == t.currentZ
    ensures r.tiltSpeed == t.tiltSpeed && r.maxAngle == t.maxAngle
    ensures !k.up && !k.down ==> r.targetX == t.targetX
    ensures !k.left && !k.right ==> r.targetZ == t.targetZ
    ensures k.up && !k.down ==> r.targetX == Lower(t.targetX, t.tiltSpeed, t.maxAngle)
    ensures k.down && !k.up ==> r.targetX == Raise(t.targetX, t.tiltSpeed, t.maxAngle)
    ensures k.left && !k.right ==> r.targetZ == Lower(t.targetZ, t.tiltSpeed, t.maxAngle)
    ensures k.right && !k.left ==> r.targetZ == Raise(t.targetZ, t.tiltSpeed, t.maxAngle)
    ensures Valid(t) && k.up && k.down ==> r.targetX == Min(Max(t.targetX, -t.maxAngle + t.tiltSpeed), t.maxAngle)
    ensures Valid(t) && k.left && k.right ==> r.targetZ == Min(Max(t.targetZ, -t.maxAngle + t.tiltSpeed), t.maxAngle)
    ensures Valid(t) ==> Valid(r)
  {
    var x1 := if k.up then Lower(t.targetX, t.tiltSpeed, t.maxAngle) else t.targetX;
    var x2 := if k.down then Raise(x1, t.tiltSpeed, t.maxAngle) else x1;
    var z1 := if k.left then Lower(t.targetZ, t.tiltSpeed, t.maxAngle) else t.targetZ;
    var z2 := if k.right then Raise(z1, t.tiltSpeed, t.maxAngle) else z1;
    t.(targetX := x2, targetZ := z2)
  }

  /** One low-pass step of a current angle toward its target. */
  function Smooth(current: real, target: real): (r: real)
    ensures r == (1.0 - C.Smoothing) * current + C.Smoothing * target
    ensures target - r == (1.0 - C.Smoothing) * (target - current)
  {
    current + (target - current) * C.Smoothing
  }

  /** The tilt part of one animation frame. */
  function TiltStep(t: TiltState, k: Keys): (r: TiltState)
    ensures r.tiltSpeed == t.tiltSpeed && r.maxAngle == t.maxAngle
    ensures r.targetX == StepTargets(t, k).targetX && r.targetZ == StepTargets(t, k).targetZ
    ensures r.currentX == (1.0 - C.Smoothing) * t.currentX + C.Smoothing * r.targetX
    ensures r.currentZ == (1.0 - C.Smoothing) * t.currentZ + C.Smoothing * r.targetZ
    ensures Valid(t) ==> Valid(r)
  {
    var s := StepTargets(t, k);
    s.(currentX := Smooth(s.currentX, s.targetX), currentZ := Smooth(s.currentZ, s.targetZ))
  }

  /** Each frame closes a tenth of the distance between current and (new) target angle. */
  lemma GapShrinks(t: TiltState, k: Keys)
    ensures var r := TiltStep(t, k);
      && Abs(r.targetX - r.currentX) == 0.9 * Abs(r.targetX - t.currentX)
      && Abs(r.targetZ - r.currentZ) == 0.9 * Abs(r.targetZ - t.currentZ)
  {
  }

  /** The tilt after a run of frames, one key set per frame. */
  function RunTilt(t: TiltState, frames: seq<Keys>): TiltState
    decreases |frames|
  {
    if |frames| == 0 then t else RunTilt(TiltStep(t, frames[0]), frames[1..])
  }

  /** Whatever keys are held, the angles stay within `[-maxAngle, maxAngle]`. */
  lemma {:induction false} RunTiltValid(t: TiltState, frames: seq<Keys>)
    requires Valid(t)
    ensures Valid(RunTilt(t, frames))
    ensures RunTilt(t, frames).maxAngle == t.maxAngle && RunTilt(t, frames).tiltSpeed == t.tiltSpeed
    decreases |frames|
  {
    if |frames| > 0 {
      RunTiltValid(TiltStep(t, frames[0]), frames[1..]);
    }
  }

  function Repeat(k: Keys, n: nat): (r: seq<Keys>)
    ensures |r| == n
  {
    if n == 0 then [] else [k] + Repeat(k, n - 1)
  }

  function Pow(b: real, n: nat): real {
    if n == 0 then 1.0 else b * Pow(b, n - 1)
  }

  /** Running `n` frames of the same keys is one frame followed by `n - 1`. */
  lemma RunRepeat(t: TiltState, k: Keys, n: nat)
    requires 0 < n
    ensures RunTilt(t, Repeat(k, n)) == RunTilt(TiltStep(t, k), Repeat(k, n - 1))
  {
    assert Repeat(k, n)[0] == k && Repeat(k, n)[1..] == Repeat(k, n - 1);
  }

  /**
   With no key held the targets stay put and the gap between target and
   current angle shrinks by the factor 0.9 every frame.
   */
  lemma {:induction false} IdleConverges(t: TiltState, n: nat)
    ensures RunTilt(t, Repeat(NoKeys, n)).targetX == t.targetX
    ensures RunTilt(t, Repeat(NoKeys, n)).targetZ == t.targetZ
    ensures t.targetX - RunTilt(t, Repeat(NoKeys, n)).currentX == Pow(0.9, n) * (t.targetX - t.currentX)
    ensures t.targetZ - RunTilt(t, Repeat(NoKeys, n)).currentZ == Pow(0.9, n) * (t.targetZ - t.currentZ)
    decreases n
  {
    if n > 0 {
      var t1 := TiltStep(t, NoKeys);
      RunRepeat(t, NoKeys, n);
      IdleConverges(t1, n - 1);
      var p := Pow(0.9, n - 1);
      ScaleGap(p, t.targetX, t.currentX, t1.currentX);
      ScaleGap(p, t.targetZ, t.currentZ, t1.currentZ);
    }
  }

  lemma ScaleGap(p: real, target: real, current: real, next: real)
    requires target - next == 0.9 * (target - current)
    ensures p * (target - next) == (0.9 * p) * (target - current)
  {
  }

  const UpOnly: Keys := Keys(true, false, false, false)

  /** How far `n` unclamped steps of size `speed` move an angle. */
  function Travel(n: nat, speed: real): real {
    if n == 0 then 0.0 else Travel(n - 1, speed) + speed
  }

  /** `n` steps of size `speed` travel `n * speed`. */
  lemma {:induction false} TravelIsProduct(n: nat, speed: real)
    ensures Travel(n, speed) == n as real * speed
  {
    if n > 0 {
      TravelIsProduct(n - 1, speed);
      assert (n - 1) as real * speed + speed == n as real * speed;
    }
  }

  /**
   Holding Up for `n` frames lowers the x target by `Travel(n, tiltSpeed)`,
   that is `n * tiltSpeed` by `TravelIsProduct`, stopping at `-maxAngle`, and
   leaves the z target alone.
   */
  lemma {:induction false} HoldUp(t: TiltState, frames: seq<Keys>)
    requires forall i :: 0 <= i < |frames| ==> frames[i] == UpOnly
    requires 0.0 <= t.tiltSpeed && -t.maxAngle <= t.targetX
    ensures RunTilt(t, frames).targetX == Max(t.targetX - Travel(|frames|, t.tiltSpeed), -t.maxAngle)
    ensures RunTilt(t, frames).targetZ == t.targetZ
    decreases |frames|
  {
    if |frames| > 0 {
      var t1 := TiltStep(t, UpOnly);
      UpStep(t);
      assert RunTilt(t, frames) == RunTilt(t1, frames[1..]);
      assert t1.tiltSpeed == t.tiltSpeed && t1.maxAngle == t.maxAngle;
      HoldUp(t1, frames[1..]);
      TravelNonneg(|frames| - 1, t.tiltSpeed);
      LowerThenShift(t.targetX, t.tiltSpeed, Travel(|frames| - 1, t.tiltSpeed), t.maxAngle);
    }
  }

  lemma {:induction false} TravelNonneg(n: nat, speed: real)
    requires 0.0 <= speed
    ensures 0.0 <= Travel(n, speed)
  {
    if n > 0 {
      TravelNonneg(n - 1, speed);
    }
  }

  lemma UpStep(t: TiltState)
    ensures TiltStep(t, UpOnly).targetX == Lower(t.targetX, t.tiltSpeed, t.maxAngle)
    ensures TiltStep(t, UpOnly).targetZ == t.targetZ
  {
  }

  /** Lowering by `s` and then by `k` is lowering by `k + s`, with one clamp at the end. */
  lemma LowerThenShift(x: real, s: real, k: real, m: real)
    requires 0.0 <= s && 0.0 <= k
    ensures Max(Lower(x, s, m) - k, -m) == Max(x - (k + s), -m)
  {
  }
}

=== FILE: vectors.dfy ===
/**
 Three-component vectors over the reals: the part of the three.js `Vector3`
 API the marble simulation calls, and a square-root oracle.

 Reals have no built-in square root, so every operation that needs one
 (`length`, `distanceTo`, `normalize`) takes a function `sqrt` together with
 the requirement `IsSqrt(sqrt)`: for every non-negative argument it returns
 the non-negative root. Nothing else about `sqrt` is assumed.

 Squares are written through `Sq` rather than as raw products, and facts
 about them are proved once here, so that the rest of the model reasons
 about squares linearly.
 */
module Vectors {

  datatype Vec3 = Vec3(x: real, y: real, z: real)

  const Zero: Vec3 := Vec3(0.0, 0.0, 0.0)

  function Add(a: Vec3, b: Vec3): Vec3 {
    Vec3(a.x + b.x, a.y + b.y, a.z + b.z)
  }

  function Sub(a: Vec3, b: Vec3): Vec3 {
    Vec3(a.x - b.x, a.y - b.y, a.z - b.z)
  }

  /** `multiplyScalar`. */
  function Scale(v: Vec3, k: real): Vec3 {
    Vec3(v.x * k, v.y * k, v.z * k)
  }

  function Dot(a: Vec3, b: Vec3): real {
    a.x * b.x + a.y * b.y + a.z * b.z
  }

  function Sq(a: real): real {
    a * a
  }

  /** Squared Euclidean length, `lengthSq`. */
  function Norm2(v: Vec3): real {
    Sq(v.x) + Sq(v.y) + Sq(v.z)
  }

  /** Squared Euclidean distance, `distanceToSquared`. */
  function Dist2(a: Vec3, b: Vec3): real {
    Norm2(Sub(a, b))
  }

  // ---------------------------------------------------------------- squares

  lemma MulPos(a: real, b: real)
    requires 0.0 < a && 0.0 < b
    ensures 0.0 < a * b
  {
  }

  /** On the non-negative reals squaring is strictly increasing. */
  lemma SqLt(a: real, b: real)
    requires 0.0 <= a < b
    ensures Sq(a) < Sq(b)
  {
    MulPos(b - a, b + a);
    assert (b - a) * (b + a) == b * b - a * a;
  }

  lemma SqNeg(a: real)
    ensures Sq(-a) == Sq(a)
  {
  }

  lemma SqPos(a: real)
    requires a != 0.0
    ensures 0.0 < Sq(a)
  {
    if 0.0 < a {
      SqLt(0.0, a);
    } else {
      SqLt(0.0, -a);
      SqNeg(a);
    }
  }

  lemma SqNonneg(a: real)
    ensures 0.0 <= Sq(a)
  {
    if a != 0.0 {
      SqPos(a);
    }
  }

  /** Two non-negative reals with the same square are equal. */
  lemma SqInjective(a: real, b: real)
    requires 0.0 <= a && 0.0 <= b
    requires Sq(a) == Sq(b)
    ensures a == b
  {
    if a < b {
      SqLt(a, b);
    } else if b < a {
      SqLt(b, a);
    }
  }

  /** Comparing non-negative reals is comparing their squares. */
  lemma SqLess(a: real, b: real)
    requires 0.0 <= a && 0.0 <= b
    ensures a < b <==> Sq(a) < Sq(b)
  {
    if a < b {
      SqLt(a, b);
    } else if b < a {
      SqLt(b, a);
    }
  }

  /** On the non-negative reals squaring is monotone. */
  lemma SqMono(a: real, b: real)
    requires 0.0 <= a <= b
    ensures Sq(a) <= Sq(b)
  {
    if a < b {
      SqLt(a, b);
    }
  }

  lemma SumSqNonneg(a: real, b: real)
    ensures 0.0 <= Sq(a) + Sq(b)
  {
    SqNonneg(a);
    SqNonneg(b);
  }

  lemma MulNonneg(a: real, b: real)
    requires 0.0 <= a && 0.0 <= b
    ensures 0.0 <= a * b
  {
  }

  lemma ScaleZero(k: real)
    ensures Scale(Zero, k) == Zero
  {
  }

  lemma SubZero(a: Vec3, b: Vec3)
    ensures Sub(a, b) == Zero <==> a == b
  {
  }

  // ------------------------------------------------------------------ norms

  lemma Norm2Nonneg(v: Vec3)
    ensures 0.0 <= Norm2(v)
  {
    SqNonneg(v.x);
    SqNonneg(v.y);
    SqNonneg(v.z);
  }

  /** Only the zero vector has zero length. */
  lemma Norm2Zero(v: Vec3)
    ensures Norm2(v) == 0.0 <==> v == Zero
  {
    Norm2Nonneg(v);
    SqNonneg(v.x);
    SqNonneg(v.y);
    SqNonneg(v.z);
    if v.x != 0.0 {
      SqPos(v.x);
    } else if v.y != 0.0 {
      SqPos(v.y);
    } else if v.z != 0.0 {
      SqPos(v.z);
    }
  }

  lemma Norm2Scale(v: Vec3, k: real)
    ensures Norm2(Scale(v, k)) == Sq(k) * Norm2(v)
  {
  }

  /** `|v - n k|^2` expanded: the identity behind every reflection bound. */
  lemma Norm2SubScaled(v: Vec3, n: Vec3, k: real)
    ensures Norm2(Sub(v, Scale(n, k))) == Norm2(v) - 2.0 * k * Dot(v, n) + Sq(k) * Norm2(n)
  {
  }

  lemma ScaleScale(v: Vec3, a: real, b: real)
    ensures Scale(Scale(v, a), b) == Scale(v, a * b)
  {
  }

  lemma SubScaledTwice(v: Vec3, n: Vec3, a: real, b: real)
    ensures Sub(Sub(v, Scale(n, a)), Scale(n, b)) == Sub(v, Scale(n, a + b))
  {
    assert v.x - n.x * a - n.x * b == v.x - n.x * (a + b);
    assert v.y - n.y * a - n.y * b == v.y - n.y * (a + b);
    assert v.z - n.z * a - n.z * b == v.z - n.z * (a + b);
  }

  /** The component along `h` of `k * (a + b * t)`. */
  lemma DotScaleAdd(a: Vec3, b: Vec3, t: real, k: real, h: Vec3)
    ensures Dot(Scale(Add(a, Scale(b, t)), k), h) == k * (Dot(a, h) + t * Dot(b, h))
  {
  }

  lemma DotSubScaled(v: Vec3, n: Vec3, k: real)
    ensures Dot(Sub(v, Scale(n, k)), n) == Dot(v, n) - k * Norm2(n)
  {
  }

  // ------------------------------------------------------------ square root

  /** `sqrt` returns the non-negative square root of every non-negative real. */
  ghost predicate IsSqrt(sqrt: real -> real) {
    forall a :: 0.0 <= a ==> 0.0 <= sqrt(a) && Sq(sqrt(a)) == a
  }

  /** The oracle's root is the only non-negative root. */
  lemma SqrtOf(sqrt: real -> real, a: real, s: real)
    requires IsSqrt(sqrt)
    requires 0.0 <= s && Sq(s) == a
    ensures sqrt(a) == s
  {
    SqNonneg(s);
    var t := sqrt(a);
    assert 0.0 <= t && Sq(t) == a;
    SqInjective(t, s);
  }

  /** Comparing a root with a non-negative bound is comparing the radicand with the bound's square. */
  lemma SqrtLess(sqrt: real -> real, a: real, r: real)
    requires IsSqrt(sqrt)
    requires 0.0 <= a && 0.0 <= r
    ensures sqrt(a) < r <==> a < Sq(r)
  {
    var s := sqrt(a);
    assert 0.0 <= s && Sq(s) == a;
    SqLess(s, r);
  }

  /** `Vector3.length`. */
  function Length(v: Vec3, sqrt: real -> real): (r: real)
    requires IsSqrt(sqrt)
    ensures 0.0 <= r && Sq(r) == Norm2(v)
    ensures r == 0.0 <==> v == Zero
  {
    RootOfNorm2(v, sqrt);
    sqrt(Norm2(v))
  }

  lemma RootOfNorm2(v: Vec3, sqrt: real -> real)
    requires IsSqrt(sqrt)
    ensures 0.0 <= sqrt(Norm2(v)) && Sq(sqrt(Norm2(v))) == Norm2(v)
    ensures sqrt(Norm2(v)) == 0.0 <==> v == Zero
  {
    Norm2Nonneg(v);
    Norm2Zero(v);
    var r := sqrt(Norm2(v));
    if r != 0.0 {
      SqPos(r);
    }
  }

  /** `distanceTo`. */
  function Distance(a: Vec3, b: Vec3, sqrt: real -> real): (r: real)
    requires IsSqrt(sqrt)
    ensures 0.0 <= r && Sq(r) == Dist2(a, b)
    ensures r == 0.0 <==> a == b
  {
    SubZero(a, b);
    Length(Sub(a, b), sqrt)
  }

  /**
   `Vector3.normalize`: divides by the length, or by 1 when the length is 0,
   so the zero vector stays zero.
   */
  function Normalize(v: Vec3, sqrt: real -> real): (r: Vec3)
    requires IsSqrt(sqrt)
    ensures v == Zero <==> r == Zero
    ensures v != Zero ==> Norm2(r) == 1.0
    ensures Scale(r, Length(v, sqrt)) == v
  {
    var len := Length(v, sqrt);
    if len == 0.0 then
      v
    else
      UnitScale(v, len);
      Scale(v, 1.0 / len)
  }

  /** Dividing a vector by its (non-zero) length gives a unit vector that scales back to it. */
  lemma UnitScale(v: Vec3, len: real)
    requires 0.0 < len && Sq(len) == Norm2(v)
    ensures Norm2(Scale(v, 1.0 / len)) == 1.0
    ensures Scale(Scale(v, 1.0 / len), len) == v
  {
    var k := 1.0 / len;
    assert k * len == 1.0;
    Norm2Scale(v, k);
    assert Sq(k) * Sq(len) == Sq(k * len);
    ScaleScale(v, k, len);
  }

  /** `normalize` divides by the length when that is not zero. */
  lemma NormalizeBy(v: Vec3, sqrt: real -> real, len: real)
    requires IsSqrt(sqrt)
    requires Length(v, sqrt) == len && len != 0.0
    ensures Normalize(v, sqrt) == Scale(v, 1.0 / len)
  {
  }

  lemma DistanceIsLength(a: Vec3, b: Vec3, sqrt: real -> real, offset: Vec3)
    requires IsSqrt(sqrt)
    requires Sub(a, b) == offset
    ensures Distance(a, b, sqrt) == Length(offset, sqrt)
  {
  }
}
